=== FILE: README.md ===
# Stock management: a verified model of the client core

This project models the browser side of a small inventory application in
Dafny. The application is a React client talking to a PHP/MySQL store, and
users keep a list of stock records in it. Each record has:

- an id and a stock number
- a product name
- a quantity and a unit price
- a last-updated timestamp

The model covers:

- **The form validator** (`validateStockItem`): per-field error messages and the `isValid` flag.
- **The stock-number suggestion** for the add form: "STK" followed by the largest parsable suffix plus one, padded to three digits.
- **App's state handlers**: loading the list, add, update, search, delete and the undo path, and the add and edit modals' submit as App wires them.
- **The table**: the column sort (toggle, comparator, resulting order), the sort icons, the empty view, and the quantity status and badge.
- **The update panel**: search-to-edit, the notices it shows, and the save that merges the form into the edited record.

The JavaScript built-ins these depend on are modelled explicitly as functions on `seq<char>`:

- `trim` uses the ECMAScript white-space and line-terminator set.
- `toLowerCase` and `includes`.
- `replace` with a string pattern changes the first occurrence only.
- `parseInt(…, 10)` skips leading white space, then reads an optional sign and the leading digits.
- `Number.prototype.toString` and `padStart`.
- String `<` is lexicographic.

Numbers are `JsNumber.Num`: NaN, the two infinities, or a finite real. The
comparisons `<` and `===` are written out with JavaScript's NaN rules.

Modules, one per file:

| file | module | what it models |
|---|---|---|
| options.dfy | `Options` | `null` results |
| js_number.dfy | `JsNumber` | JS numbers, `<`, `===`, `Number.isInteger` |
| js_string.dfy | `JsString` | JS string built-ins listed above |
| stock.dfy | `Stock` | `StockItem` and the form's editable fields |
| validation.dfy | `Validation` | `validateStockItem` |
| stock_numbers.dfy | `StockNumbers` | the stock-number suggestion |
| item_list.dfy | `ItemList` | App's search, map-update and filter-delete over the item list |
| app.dfy | `App` | App's state, its handlers and a run over UI events |
| stock_table.dfy | `StockTable` | `StockTable`'s sort, icons, status and empty view |
| update_panel.dfy | `UpdatePanel` | `UpdatePanel`'s search, notices and save |

Behaviours worth knowing:

- **Infinite prices.** `validateStockItem` accepts `Infinity` as a price: it rejects only NaN and values below 0. `Validation.InfinitePriceAccepted` states this.
- **Failed updates.** `handleUpdateItem` changes the list only after the store reports success, so a failed update leaves the list as it was. No change is made first and rolled back later.
- **Undo.** `deletedStock` and `showUndo` are never set by any handler. The undo bar never shows, and `handleUndoDelete` is unreachable in effect (`App.UndoIsDead`).
- **Negative suffixes.** The suggestion pads negative numbers as strings: a largest suffix of -5 suggests "STK0-4". The model reproduces this. `StockNumbers.NextStockNumber` states that the suggestion's own suffix still parses to a value above every existing one.

## Model

| member | source | states |
|---|---|---|
| JsNumber.LessIsStrictTotalOrder | src/components/StockTable.tsx:25-28 | without NaN, `<` on numbers is irreflexive, asymmetric, total and transitive |
| JsNumber.NaNIsUnordered | src/components/StockTable.tsx:25-31 | NaN is neither below nor above any number and equals nothing, so the comparator calls it a tie |
| JsString.TrimStart | src/utils/validation.ts:15 | the result is a suffix of the input; the dropped prefix is all white space; the result does not start with white space |
| JsString.TrimEnd | src/utils/validation.ts:15 | the result is a prefix of the input; the dropped suffix is all white space; the result does not end with white space |
| JsString.Trim | src/utils/validation.ts:15-17 | the input is white space, the result, then white space; the result has no white space at either end; it is empty exactly when the input is all white space |
| JsString.TrimStartSkips | src/utils/validation.ts:17 | trimming the start of white space followed by text that starts with a non-blank gives that text |
| JsString.TrimEndSkips | src/utils/validation.ts:17 | trimming the end of text that ends with a non-blank followed by white space gives that text |
| JsString.TrimOfPadded | src/utils/validation.ts:17 | trimming white space + core + white space gives the core when the core has non-blank ends |
| JsString.ToLower | src/App.tsx:109 | same length; no capital A-Z is left; each capital becomes its lower-case letter and every other character stays |
| JsString.ToLowerFacts | src/App.tsx:109 | lower-casing is idempotent, and a string is blank after lower-casing exactly when it was blank before |
| JsString.IncludesIff | src/App.tsx:113-114 | `includes` holds exactly when the needle occurs at some position of the text |
| JsString.DigitChar | src/App.tsx:212 | the digit character for 0-9 is a digit whose value is that number |
| JsString.LeadingDigits | src/App.tsx:210 | the result is the longest prefix made of digits only |
| JsString.IntToString | src/App.tsx:212 | non-empty; a leading '-' exactly for negative numbers; the digits after it read back as the magnitude, with no leading zero |
| JsString.NatToDigits | src/App.tsx:212 | non-empty, all digits, reads back as the number; one digit exactly below 10, and no leading zero otherwise |
| JsString.PadStart | src/App.tsx:212 | the result is at least the target length; the input is its suffix, preceded only by the fill character |
| JsString.LeadingZerosKeepValue | src/App.tsx:210-212 | zeros in front of a digit string do not change its value |
| JsString.ParseInt | src/App.tsx:210 | NaN for blank text; text starting with a digit reads its leading digit run; '-' or '+' then a digit reads the digit run after the sign, negated for '-'; a sign not followed by a digit, or any other first character, is NaN |
| JsString.ParseIntSkipsWhitespace | src/App.tsx:210 | leading white space does not change what `parseInt` reads |
| JsString.ParseIntOfDigits | src/App.tsx:210 | `parseInt` of a string of digits only is the value of all of them |
| JsString.ParseDigitsThenRest | src/App.tsx:210 | `parseInt` of a digit run followed by a non-digit reads the run |
| JsString.DigitRunIsLeading | src/App.tsx:210 | a digit run followed by a non-digit (or nothing) is exactly the leading digits |
| JsString.ParseIntOfIntToString | src/App.tsx:210-212 | `parseInt(n.toString())` is `n` for every integer `n`, including negative ones |
| JsString.ReplaceFirstAbsent | src/App.tsx:210 | `replace` leaves a string in which the pattern does not occur unchanged |
| JsString.ReplaceFirstAt | src/App.tsx:210 | when the pattern first occurs at position k, `replace` gives the text before k, the replacement, and the text after the occurrence: only the first occurrence is replaced |
| JsString.ReplaceFirstAtFront | src/App.tsx:210 | removing the first occurrence of a pattern from a string that starts with it leaves the rest |
| JsString.StrLessIrreflexive | src/components/StockTable.tsx:25-28 | no string is below itself |
| JsString.StrLessAsymmetric | src/components/StockTable.tsx:25-28 | two strings are never each below the other |
| JsString.StrLessTransitive | src/components/StockTable.tsx:25-28 | string `<` is transitive |
| JsString.StrLessTotal | src/components/StockTable.tsx:25-28 | of two different strings one is below the other |
| Validation.StockNumberRule | src/utils/validation.ts:15-19 | "required" exactly when the stock number is blank; "alphanumeric" exactly when it is not blank and its trimmed form is not all ASCII letters and digits; no error otherwise |
| Validation.ProductNameRule | src/utils/validation.ts:22-24 | an error exactly when the product name is blank, with the "required" message |
| Validation.QuantityRule | src/utils/validation.ts:27-33 | no error exactly for finite whole numbers at least 0; NaN is "required", negative values and -Infinity are "0 or greater", fractions and +Infinity are "whole number" |
| Validation.PriceRule | src/utils/validation.ts:36-40 | no error exactly for +Infinity or finite values at least 0; NaN is "required", the rest "0 or greater" |
| Validation.CollectErrors | src/utils/validation.ts:12-40 | the error map has only the four field keys, and each key holds its rule's message or is absent |
| Validation.Validate | src/utils/validation.ts:6-46 | errors only under the four field keys; each field's entry is that field's rule; valid exactly when there is no error |
| Validation.StockNumberAcceptedIff | src/utils/validation.ts:15-19 | a stock number passes exactly when it is white space, one or more ASCII letters or digits, then white space |
| Validation.AcceptedIsPadded | src/utils/validation.ts:15-19 | an accepted stock number is padded alphanumeric text |
| Validation.PaddedIsAccepted | src/utils/validation.ts:15-19 | padded alphanumeric text is accepted |
| Validation.TrimOfPaddedAlnum | src/utils/validation.ts:17 | trimming padded alphanumeric text gives its alphanumeric core |
| Validation.ValidIff | src/utils/validation.ts:6-46 | a form is valid exactly when it meets all four requirements, stated field by field without the rules |
| Validation.FieldsAreIndependent | src/utils/validation.ts:14-40 | each field's error depends on that field alone |
| Validation.InfinitePriceAccepted | src/utils/validation.ts:36-40 | +Infinity passes the price check |
| StockNumbers.SuffixValueCases | src/App.tsx:210 | a stock number starting with "STK" reads as `parseInt` of the rest; one without "STK" anywhere reads as `parseInt` of the whole |
| StockNumbers.SuffixValueAnywhere | src/App.tsx:210 | wherever the first "STK" stands, the suffix is `parseInt` of the text before it joined to the text after it, so "1STK2" reads as 12 and " STK5" as 5 |
| StockNumbers.Parsed | src/App.tsx:210 | a value survives the NaN filter exactly when some item's suffix parsed to it |
| StockNumbers.Max | src/App.tsx:211 | the maximum is one of the values and no value exceeds it |
| StockNumbers.NextFrom | src/App.tsx:211 | the next number exceeds every parsed suffix and is one more than one of them; with none parsed it is 1 |
| StockNumbers.NextFromBySet | src/App.tsx:210-211 | the next number depends only on which values parsed, not on order or repetition |
| StockNumbers.NextFromIndexed | src/App.tsx:210-211 | the next number's facts stated position by position over the parse results |
| StockNumbers.NextNumber | src/App.tsx:210-211 | above every item's parsed suffix, one more than some item's suffix, and 1 when no item's suffix parses |
| StockNumbers.NextStockNumber | src/App.tsx:209-213 | "STK", then the next number's text left-padded with '0' to exactly three characters, or kept whole when it is longer; all digits when the next number is not negative; its own suffix parses to at least the next number, and exactly to it when that is not negative |
| StockNumbers.Format | src/App.tsx:212 | "STK" then the number's text padded with '0' on the left to three characters, kept whole when longer; all digits after "STK" for a number that is not negative |
| StockNumbers.FormatShape | src/App.tsx:212 | "STK" then any text padded to three places: length 3 + max(3, text length), the text at the end, '0's before it |
| StockNumbers.FormatReadsBack | src/App.tsx:210-212 | the formatted number's own suffix parses to at least the number, and to the number itself when it is not negative |
| StockNumbers.FormatDigits | src/App.tsx:212 | after "STK" every character of a formatted non-negative number is a digit |
| StockNumbers.PaddedShape | src/App.tsx:212 | the padded number has at least three characters, all digits when the number is not negative |
| StockNumbers.PaddedReadsBack | src/App.tsx:212 | the padded number parses back, to the number itself when it is not negative and to something no smaller otherwise |
| StockNumbers.PaddedNonNegative | src/App.tsx:212 | a non-negative number padded with zeros parses back to itself |
| StockNumbers.PaddedSmallNegative | src/App.tsx:212 | -9 to -1 padded to "0-d" parse as 0 |
| StockNumbers.SuggestionIsFresh | src/App.tsx:209-213 | the suggestion differs from every existing stock number whose suffix parses |
| StockNumbers.SuggestionDefault | src/App.tsx:211-212 | with no parsable suffix the suggestion is "STK001" |
| StockNumbers.UnparsableSuffixIgnored | src/App.tsx:210 | adding an item whose suffix does not parse leaves the suggestion unchanged |
| StockNumbers.SuggestionExample | src/App.tsx:209-213 | STK001, STK005 and STKabc suggest STK006 |
| ItemList.FirstMatchFrom | src/App.tsx:112-115 | the position found matches and no earlier position from the start matches; none found means nothing matches |
| ItemList.Search | src/App.tsx:108-116 | a blank term finds nothing; a found item is in the list and matches the lowered, trimmed term; finding nothing with a non-blank term means no item matches |
| ItemList.SearchReturnsFirstMatch | src/App.tsx:112-115 | the search returns the first matching item |
| ItemList.SearchIgnoresTermCase | src/App.tsx:109 | lower-casing the term first does not change the result |
| ItemList.MatchesIffOccurs | src/App.tsx:113-114 | an item matches exactly when the needle occurs in its lowered stock number or lowered product name |
| ItemList.UpdateById | src/App.tsx:88-92 | same length; items with the submitted id become the submitted record with the new timestamp; all others stay in place |
| ItemList.UpdateKeepsIds | src/App.tsx:88-92 | an update never changes the id at any position |
| ItemList.UpdateIsIdempotent | src/App.tsx:88-92 | applying the same update twice equals applying it once |
| ItemList.UpdateOfAbsentId | src/App.tsx:88-92 | an update for an id nobody has leaves the list unchanged |
| ItemList.DeleteById | src/App.tsx:130 | no item with the id remains; every other item keeps its multiplicity; nothing is added |
| ItemList.DeleteDistributes | src/App.tsx:130 | deleting from a concatenation deletes from each part, so order is kept |
| ItemList.DeleteSingle | src/App.tsx:130 | a one-item list loses the item exactly when it has the id |
| ItemList.DeleteOfAbsentId | src/App.tsx:130 | deleting an id nobody has leaves the list unchanged |
| ItemList.DeleteIsIdempotent | src/App.tsx:130 | deleting the same id twice equals deleting it once |
| App.FetchItems | src/App.tsx:30-45 | loading ends; a successful load replaces the list; a failed one keeps it and reports "Failed to load items"; nothing else changes |
| App.HandleAddItem | src/App.tsx:54-76 | always returns true; success reloads the list, closes the modal and reports success, changing nothing else; failure keeps everything but reports "Error: " + reason |
| App.HandleUpdateItem | src/App.tsx:78-106 | always returns true; success replaces every item with the id by the stamped record, keeps the others and closes the edit and the panel, changing nothing else; failure only reports the error |
| App.HandleDeleteItem | src/App.tsx:118-140 | unconfirmed it does nothing; success leaves exactly the list with every item of that id filtered out, the others in their original order; failure only reports the error |
| App.HandleUndoDelete | src/App.tsx:142-150 | with a stored deleted item it appends it, clears the undo state and reports "Item restored", changing nothing else; without one it does nothing |
| App.SubmitAdd | src/components/AddModal.tsx:39-62 | a draft that fails validation changes nothing; a valid one always closes the add modal, with the reloaded list and a success message when the store took it, and the old list and the error when it did not; on success only the list, the loading flag, the modal flag and the message change |
| App.SaveEdit | src/components/AddModal.tsx:39-62 | nothing changes for a draft that fails validation or when nothing is edited; otherwise the edit always closes, with the list unchanged and "Failed to update item" on a refusal, and on acceptance every row with the edited id gets the form's fields, its id and the new timestamp while other rows stay as they were, the panel closes and success is reported, and nothing else in the state changes |
| App.SaveEditStoresDraft | src/components/UpdatePanel.tsx:40-49 | a stored valid edit gives every row with the edited id the form's fields, that id and the new timestamp, and leaves other rows alone |
| App.FailedSaveKeepsItems | src/App.tsx:102-105 | a refused edit keeps the list, yet closes the edit form whenever the draft passed validation |
| App.Step | src/App.tsx:176-224 | failed requests and events other than load, submit, delete and undo keep the list; only undo touches the undo state; a delete the table's confirm refused changes nothing; the message timer clears only the message; opening the modal and picking an edit do what they say |
| App.FailuresKeepItems | src/App.tsx:30-140 | a failed load, add, edit or delete leaves the list unchanged |
| App.StepKeepsUndoEmpty | src/App.tsx:13-14 | no event stores a deleted item or shows the undo bar |
| App.RunKeepsUndoEmpty | src/App.tsx:13-14 | any sequence of events keeps the undo state empty |
| App.UndoIsDead | src/App.tsx:142-150 | in every reachable state there is nothing to undo, the bar is hidden, and undo changes nothing |
| StockTable.HandleSort | src/components/StockTable.tsx:35-40 | the clicked column becomes active; descending exactly when it was already active and ascending |
| StockTable.SortClicksAlternate | src/components/StockTable.tsx:35-40 | clicks on the active column flip its direction, and two clicks restore the configuration |
| StockTable.NewColumnSortsAscending | src/components/StockTable.tsx:35-40 | a click on an inactive column sorts it ascending |
| StockTable.ThreeClicksOnOneColumn | src/components/StockTable.tsx:35-40 | three clicks on an inactive column sort it ascending, descending, then ascending |
| StockTable.SortIcon | src/components/StockTable.tsx:42-49 | neutral exactly off the active column; up exactly for the ascending active column; down exactly for the descending one |
| StockTable.IconFollowsClick | src/components/StockTable.tsx:35-49 | after a click only the clicked column shows a direction, down exactly when it was ascending before |
| StockTable.KeyOf | src/components/StockTable.tsx:22-23 | each column reads its own field of the item; quantity and price compare as numbers, every other column as text |
| StockTable.Compare | src/components/StockTable.tsx:21-32 | the comparator returns -1, 0 or 1, and 0 exactly when neither value is below the other |
| StockTable.DescendingNegatesAscending | src/components/StockTable.tsx:25-31 | the descending comparator is the ascending one negated, and equal keys compare 0 |
| StockTable.KeyLessAsymmetric | src/components/StockTable.tsx:25-28 | two column values are never each below the other |
| StockTable.CompareMeansPrecedes | src/components/StockTable.tsx:25-31 | comparator at most 0 means in order for the direction, both ways; the comparator is antisymmetric in sign |
| StockTable.NotLessTransitive | src/components/StockTable.tsx:25-28 | without NaN, "not below" chains across three values of one column |
| StockTable.PrecedesTransitive | src/components/StockTable.tsx:25-31 | without NaN, "in order" chains across three items |
| StockTable.Insert | src/components/StockTable.tsx:21 | inserting adds exactly one item |
| StockTable.InsertKeepsSorted | src/components/StockTable.tsx:21-32 | inserting into a comparator-sorted list keeps it sorted |
| StockTable.SortBy | src/components/StockTable.tsx:21 | the sorted list is a permutation of the input |
| StockTable.SortBySorted | src/components/StockTable.tsx:21-32 | the sorted list is in comparator order, pair by pair |
| StockTable.SortedItems | src/components/StockTable.tsx:18-33 | unchanged with no active column; otherwise a permutation of the items in comparator order |
| StockTable.SortOfSortedIsIdentity | src/components/StockTable.tsx:21-32 | sorting a sorted list changes nothing, so ties keep their order |
| StockTable.SortIsIdempotent | src/components/StockTable.tsx:18-33 | sorting the sorted rows again with the same configuration changes nothing |
| StockTable.SortedChainPrecedes | src/components/StockTable.tsx:21-32 | a comparator-sorted list without NaN keys has every item in order with every later one |
| StockTable.SortedItemsInOrder | src/components/StockTable.tsx:18-33 | without NaN in the active column, ascending rows never decrease and descending rows never increase |
| StockTable.Render | src/components/StockTable.tsx:57-69 | the empty panel exactly when there are no items; otherwise all items: in their given order when no column is active, sorted by the configuration when one is |
| StockTable.StatusOf | src/components/StockTable.tsx:159-164 | "Out of Stock" exactly at 0; "Only n left" exactly below 10 other than 0; "In stock" exactly for NaN, +Infinity and 10 or more |
| StockTable.BadgeOf | src/components/StockTable.tsx:149-154 | red exactly at 0; emerald exactly for NaN, +Infinity and 10 or more |
| StockTable.BadgeAgreesWithStatus | src/components/StockTable.tsx:149-164 | the badge colour and the status text always fall in the same band |
| StockTable.AcceptedQuantityStatus | src/components/StockTable.tsx:159-164 | for quantities the form accepts: out of stock exactly at 0, "only n left" exactly for 1 to 9, in stock exactly from 10 |
| UpdatePanel.PanelSearch | src/components/UpdatePanel.tsx:20-32 | a blank term changes nothing; otherwise the search is performed and recorded, a hit becomes the edited item, and a miss keeps the earlier edit |
| UpdatePanel.MissKeepsEditing | src/components/UpdatePanel.tsx:29-31 | a search that finds nothing leaves the earlier edited item in place |
| UpdatePanel.HitPicksFirstMatch | src/components/UpdatePanel.tsx:25-31 | a hit makes the first matching item the edited one |
| UpdatePanel.NoticeOf | src/components/UpdatePanel.tsx:98-121 | "not found" exactly after a search that found nothing; the found card exactly when a result exists and nothing is being edited |
| UpdatePanel.HitShowsNoNotice | src/components/UpdatePanel.tsx:98-133 | right after a hit no notice shows; closing the edit brings up the found card |
| UpdatePanel.Merge | src/components/UpdatePanel.tsx:43-46 | the merged record keeps the edited item's id and timestamp and carries exactly the form's fields |
| UpdatePanel.MergeRoundTrip | src/components/UpdatePanel.tsx:43-46 | merging an item's own fields gives it back; a later merge overrides an earlier one |
| UpdatePanel.HandleSave | src/components/UpdatePanel.tsx:40-49 | nothing to save exactly when no item is being edited; otherwise the edited item merged with the form's fields: the edited item's id together with the form's fields |

## Left out

- Network I/O. `fetch`, the JSON encoding and the PHP store are not modelled: each request's outcome is a parameter (`App.Reply`, `App.FetchReply`). The store's own validation and SQL are outside the client core.
- The clock. `new Date().toISOString()` in `handleUpdateItem` is the parameter `now`.
- Timers. The 3-second message timeout is the `App.MessageExpired` event. The undo timer is never started.
- `window.confirm` dialogs are boolean parameters: App's own confirmation in `handleDeleteItem`, and the table's in `App.Step`.
- The add/edit modal (`AddModal`): its field-by-field form handling, the error display and its `parseInt(...) || 0` (quantity) and `parseFloat(...) || 0` (price) conversions are left out. The model covers its submit (`App.SubmitAdd`, `App.SaveEdit`): the validator it calls, the draft it submits and the close that follows.
- Presentation-only parts are left out: `Header`, `AnimatedBackground`, CSS classes, row hover, animation delays, and price and date formatting.
- JsString.ToLower: only A-Z are lower-cased. Unicode case mapping is left out because stock numbers and the search use ASCII in practice.
- JsString.StrLess: compares by character, not by UTF-16 code unit, so characters above U+FFFF may order differently from JavaScript.
- JsNumber.Num: a finite value is a mathematical real. IEEE-754 double rounding is not modelled, nor is the loss of precision in `parseInt` beyond 2^53.
- JsString.IntToString: writes every integer in plain digits. JavaScript switches to exponent notation from 1e21 on ("1e+21"), so the suggestion differs once the next number reaches 10^21 (for example after a 21-digit suffix of all nines).
- StockTable.SortBy: the engine's sort is modelled as a stable insertion sort. For a consistent comparator every stable sort gives the same result. With NaN in a numeric column the comparator is inconsistent and the engine's order is implementation-defined; the model's order there is one possible outcome, and `StockTable.SortedItemsInOrder` requires NaN-free keys.
- StockNumbers.Max: `Math.max(...numbers)` with more arguments than the engine's call-stack limit would throw; the model has no such limit.
- StockNumbers.NextStockNumber: the all-digits shape after "STK" is stated only when the next number is not negative. When every parsable suffix is below -1, the code pads a minus sign into the suggestion, for example "STK0-4".
- App.Step: each handler is one atomic step over the current state. The source computes the new list from the `stockItems` captured when the handler's closure was rendered (src/App.tsx:88, 130, 144), for update and delete only after an `await`. Two overlapping requests, such as two deletes in flight at once, can therefore lose one update, and the second delete can bring back the row the first one removed. The model does not interleave requests.
- Entering text into the panel's search box is not an operation of its own: `UpdatePanel.PanelSearch` reads the term from the panel state.

=== FILE: app.dfy ===
/** The state transitions of the `App` component: loading the item cache,
    adding, updating and deleting through the store, the add and edit
    modals' submit as App wires them, the undo affordance and the small UI
    flags. Each request's outcome is a parameter (what the
    store answered); the timestamp the update writes is a parameter too. */
module App {
  import opened Options
  import opened Stock
  import opened ItemList
  import Validation
  import UpdatePanel

  datatype MessageKind = Success | Error
  datatype Message = Message(kind: MessageKind, text: string)

  /** The component's state hooks. */
  datatype AppState = AppState(
    items: seq<StockItem>,
    deletedStock: Option<StockItem>,
    showUndo: bool,
    showAddModal: bool,
    showUpdatePanel: bool,
    editingItem: Option<StockItem>,
    message: Option<Message>,
    isLoading: bool)

  /** The state before the first render: empty cache, loading. */
  const Initial := AppState([], None, false, false, false, None, None, true)

  const LoadFailedText := "Failed to load items"
  const AddedText := "Item added successfully"
  const UpdatedText := "Item updated successfully"
  const UpdateFailedText := "Failed to update item"
  const DeletedText := "Item deleted successfully"
  const DeleteFailedText := "Failed to delete item"
  const RestoredText := "Item restored"

  /** The store's answer to a POST, PUT or DELETE: `{status: "success"}`, or
      anything else (an error object, a transport failure, a body that is not
      JSON), with the message the thrown error carries. */
  datatype Reply = Succeeded | Failed(reason: string)

  /** The store's answer to a GET: the records, or a failure of any kind. */
  datatype FetchReply = Fetched(data: seq<StockItem>) | FetchFailed

  /** A handler's new state and the value it returns to its caller. */
  datatype Handled = Handled(state: AppState, result: bool)

  /** `fetchItems`: replace the cache with what the store returned, or keep it
      and report the failure; loading is over either way. Nothing else changes. */
  function FetchItems(st: AppState, reply: FetchReply): (r: AppState)
    ensures !r.isLoading
    ensures reply.Fetched? ==> r.items == reply.data && r.message == st.message
    ensures reply.FetchFailed? ==> r.items == st.items && r.message == Some(Message(Error, LoadFailedText))
    ensures r == st.(items := r.items, message := r.message, isLoading := false)
  {
    match reply
    case Fetched(data) => st.(items := data, isLoading := false)
    case FetchFailed => st.(message := Some(Message(Error, LoadFailedText)), isLoading := false)
  }

  /** `handleAddItem`: on success reload the cache, close the modal and report
      success (even when the reload itself failed, whose message is then
      overwritten); on failure keep the cache and report the error. It always
      returns true. */
  function HandleAddItem(st: AppState, reply: Reply, reload: FetchReply): (r: Handled)
    ensures r.result
    ensures reply.Failed? ==> r.state == st.(message := Some(Message(Error, "Error: " + reply.reason)))
    ensures reply.Succeeded? ==> r.state.items == FetchItems(st, reload).items
    ensures reply.Succeeded? ==> !r.state.showAddModal && !r.state.isLoading
    ensures reply.Succeeded? ==> r.state.message == Some(Message(Success, AddedText))
    ensures reply.Succeeded? ==>
      r.state == st.(items := r.state.items, showAddModal := false, isLoading := false, message := r.state.message)
  {
    match reply
    case Succeeded =>
      var loaded := FetchItems(st, reload);
      Handled(loaded.(showAddModal := false, message := Some(Message(Success, AddedText))), true)
    case Failed(reason) =>
      Handled(st.(message := Some(Message(Error, "Error: " + reason))), true)
  }

  /** `handleUpdateItem`: on success every cached item with the submitted id
      becomes the submitted record stamped with `now`, every other item and
      the order stay as they were, and the edit closes; on failure only the
      error message changes. It always returns true. */
  function HandleUpdateItem(st: AppState, updated: StockItem, reply: Reply, now: string): (r: Handled)
    ensures r.result
    ensures reply.Failed? ==> r.state == st.(message := Some(Message(Error, UpdateFailedText)))
    ensures reply.Succeeded? ==> |r.state.items| == |st.items|
    ensures reply.Succeeded? ==> forall i :: 0 <= i < |st.items| ==>
      r.state.items[i] == if st.items[i].id == updated.id then updated.(updatedAt := now) else st.items[i]
    ensures reply.Succeeded? ==>
      r.state.editingItem.None? && !r.state.showUpdatePanel && r.state.message == Some(Message(Success, UpdatedText))
    ensures reply.Succeeded? ==>
      r.state == st.(items := r.state.items, editingItem := None, showUpdatePanel := false, message := r.state.message)
  {
    match reply
    case Succeeded =>
      Handled(st.(items := UpdateById(st.items, updated, now), editingItem := None,
                  showUpdatePanel := false, message := Some(Message(Success, UpdatedText))), true)
    case Failed(_) =>
      Handled(st.(message := Some(Message(Error, UpdateFailedText))), true)
  }

  /** `handleDeleteItem`: without confirmation nothing happens; on success the
      items with that id leave the cache and the rest keep their order; on
      failure only the error message changes. */
  function HandleDeleteItem(st: AppState, id: string, confirmed: bool, reply: Reply): (r: AppState)
    ensures !confirmed ==> r == st
    ensures confirmed && reply.Failed? ==> r == st.(message := Some(Message(Error, DeleteFailedText)))
    ensures confirmed && reply.Succeeded? ==>
      && (forall x: StockItem :: x in r.items ==> x.id != id)
      && (forall x: StockItem :: x.id != id ==> multiset(r.items)[x] == multiset(st.items)[x])
      && r.items == DeleteById(st.items, id)
      && r == st.(items := r.items, message := Some(Message(Success, DeletedText)))
  {
    if !confirmed then st
    else
      match reply
      case Succeeded => st.(items := DeleteById(st.items, id), message := Some(Message(Success, DeletedText)))
      case Failed(_) => st.(message := Some(Message(Error, DeleteFailedText)))
  }

  /** `handleUndoDelete`: with a stored deleted item, append it to the cache,
      clear the undo state and report the restore; without one, do nothing. */
  function HandleUndoDelete(st: AppState): (r: AppState)
    ensures st.deletedStock.None? ==> r == st
    ensures st.deletedStock.Some? ==>
      r.items == st.items + [st.deletedStock.value] && r.deletedStock.None? && !r.showUndo
    ensures st.deletedStock.Some? ==>
      r == st.(items := r.items, deletedStock := None, showUndo := false, message := Some(Message(Success, RestoredText)))
  {
    match st.deletedStock
    case None => st
    case Some(d) =>
      st.(items := st.items + [d], showUndo := false, deletedStock := None,
          message := Some(Message(Success, RestoredText)))
  }

  /** The add modal's submit: a draft the form's validation rejects stays in
      the form and nothing else changes; an accepted one goes to
      `handleAddItem`, and since that always answers true the modal then
      closes, whether the store took the item or not. */
  function SubmitAdd(st: AppState, d: Draft, reply: Reply, reload: FetchReply): (r: AppState)
    ensures !Validation.Validate(d).isValid ==> r == st
    ensures Validation.Validate(d).isValid ==> !r.showAddModal
    ensures Validation.Validate(d).isValid && reply.Failed? ==>
      r == st.(showAddModal := false, message := Some(Message(Error, "Error: " + reply.reason)))
    ensures Validation.Validate(d).isValid && reply.Succeeded? ==>
      r.items == FetchItems(st, reload).items && r.message == Some(Message(Success, AddedText))
    ensures Validation.Validate(d).isValid && reply.Succeeded? ==>
      r == st.(items := r.items, isLoading := false, showAddModal := false, message := r.message)
  {
    if !Validation.Validate(d).isValid then st
    else
      var h := HandleAddItem(st, reply, reload);
      if h.result then h.state.(showAddModal := false) else h.state
  }

  /** The edit modal's submit: a draft the form's validation rejects stays in
      the form; otherwise the panel's `handleSave` merges it into the edited
      item and hands it to `handleUpdateItem`, whose answer (always true)
      closes the edit through `onEdit(null)`, whether the store took the
      update or not. With nothing being edited there is nothing to save. */
  function SaveEdit(st: AppState, d: Draft, reply: Reply, now: string): (r: AppState)
    ensures !Validation.Validate(d).isValid || st.editingItem.None? ==> r == st
    ensures Validation.Validate(d).isValid && st.editingItem.Some? ==> r.editingItem.None?
    ensures Validation.Validate(d).isValid && st.editingItem.Some? && reply.Failed? ==>
      r == st.(editingItem := None, message := Some(Message(Error, UpdateFailedText)))
    ensures Validation.Validate(d).isValid && st.editingItem.Some? && reply.Succeeded? ==>
      && |r.items| == |st.items|
      && !r.showUpdatePanel
      && r.message == Some(Message(Success, UpdatedText))
      && (forall i :: 0 <= i < |st.items| && st.items[i].id == st.editingItem.value.id ==>
            DraftOf(r.items[i]) == d && r.items[i].id == st.items[i].id && r.items[i].updatedAt == now)
      && (forall i :: 0 <= i < |st.items| && st.items[i].id != st.editingItem.value.id ==> r.items[i] == st.items[i])
    ensures Validation.Validate(d).isValid && st.editingItem.Some? && reply.Succeeded? ==>
      r == st.(items := r.items, editingItem := None, showUpdatePanel := false, message := r.message)
  {
    if !Validation.Validate(d).isValid then st
    else
      match UpdatePanel.HandleSave(st.editingItem, d)
      case None => st
      case Some(updated) =>
        var h := HandleUpdateItem(st, updated, reply, now);
        if h.result then h.state.(editingItem := None) else h.state
  }

  /** A stored edit puts the form's fields, with the edited item's id and
      the new timestamp, at every position holding that id, and changes no
      other row. */
  lemma SaveEditStoresDraft(st: AppState, d: Draft, now: string, i: nat)
    requires st.editingItem.Some? && i < |st.items|
    ensures
      var after := SaveEdit(st, d, Succeeded, now).items;
      Validation.Validate(d).isValid ==>
        && |after| == |st.items|
        && (st.items[i].id == st.editingItem.value.id ==>
              DraftOf(after[i]) == d && after[i].id == st.items[i].id && after[i].updatedAt == now)
        && (st.items[i].id != st.editingItem.value.id ==> after[i] == st.items[i])
  {
  }

  /** A refused edit keeps the cache, yet the edit form closes all the same
      once the draft passed validation. */
  lemma FailedSaveKeepsItems(st: AppState, d: Draft, reason: string, now: string)
    ensures SaveEdit(st, d, Failed(reason), now).items == st.items
    ensures SaveEdit(st, d, Failed(reason), now).editingItem ==
      if Validation.Validate(d).isValid then None else st.editingItem
  {
  }

  /** Everything that can happen to the component. A delete needs two
      confirmations: the table's and App's own. */
  datatype Event =
    | Load(answer: FetchReply)
    | OpenAddModal
    | CloseAddModal
    | Add(draft: Draft, reply: Reply, reload: FetchReply)
    | OpenUpdatePanel
    | CloseUpdatePanel
    | Edit(item: Option<StockItem>)
    | Save(draft: Draft, reply: Reply, now: string)
    | Delete(id: string, tableConfirmed: bool, appConfirmed: bool, reply: Reply)
    | Undo
    | MessageExpired

  /** One event, wired as the component's render wires it: the header's
      buttons open the modal and the panel, the panel's search sets the edit,
      a table delete reaches `handleDeleteItem` only once the table's own
      confirm is accepted, and the message timer clears the message. Only
      loads, submits, deletes and undo touch the cache, and only undo touches
      the undo state. */
  function Step(st: AppState, e: Event): (r: AppState)
    ensures IsFailedRequest(e) ==> r.items == st.items
    ensures !(e.Load? || e.Add? || e.Save? || e.Delete? || e.Undo?) ==> r.items == st.items
    ensures !e.Undo? ==> r.deletedStock == st.deletedStock && r.showUndo == st.showUndo
    ensures e.Delete? && !e.tableConfirmed ==> r == st
    ensures e.MessageExpired? ==> r == st.(message := None)
    ensures e.OpenAddModal? ==> r.showAddModal && r.items == st.items
    ensures e.Edit? ==> r.editingItem == e.item
  {
    match e
    case Load(answer) => FetchItems(st, answer)
    case OpenAddModal => st.(showAddModal := true)
    case CloseAddModal => st.(showAddModal := false)
    case Add(draft, reply, reload) => SubmitAdd(st, draft, reply, reload)
    case OpenUpdatePanel => st.(showUpdatePanel := true)
    case CloseUpdatePanel => st.(showUpdatePanel := false)
    case Edit(item) => st.(editingItem := item)
    case Save(draft, reply, now) => SaveEdit(st, draft, reply, now)
    case Delete(id, tableConfirmed, appConfirmed, reply) =>
      if tableConfirmed then HandleDeleteItem(st, id, appConfirmed, reply) else st
    case Undo => HandleUndoDelete(st)
    case MessageExpired => st.(message := None)
  }

  function Run(st: AppState, events: seq<Event>): AppState
    decreases |events|
  {
    if |events| == 0 then st else Run(Step(st, events[0]), events[1..])
  }

  /** A request that the store did not accept. */
  predicate IsFailedRequest(e: Event)
  {
    || (e.Load? && e.answer.FetchFailed?)
    || (e.Add? && e.reply.Failed?)
    || (e.Save? && e.reply.Failed?)
    || (e.Delete? && e.reply.Failed?)
  }

  /** A failed load, add, update or delete leaves the cache untouched. */
  lemma FailuresKeepItems(st: AppState, e: Event)
    requires IsFailedRequest(e)
    ensures Step(st, e).items == st.items
  {
  }

  /** No handler ever stores a deleted item or shows the undo bar. */
  lemma StepKeepsUndoEmpty(st: AppState, e: Event)
    requires st.deletedStock.None? && !st.showUndo
    ensures Step(st, e).deletedStock.None? && !Step(st, e).showUndo
  {
  }

  /** From an undo-free state, every run stays undo-free. */
  lemma {:induction false} RunKeepsUndoEmpty(st: AppState, events: seq<Event>)
    requires st.deletedStock.None? && !st.showUndo
    ensures Run(st, events).deletedStock.None? && !Run(st, events).showUndo
    decreases |events|
  {
    if |events| > 0 {
      StepKeepsUndoEmpty(st, events[0]);
      RunKeepsUndoEmpty(Step(st, events[0]), events[1..]);
    }
  }

  /** The undo path is dead: in every state reachable from the initial one
      there is no stored deleted item, the undo bar is hidden, and undo
      changes nothing. */
  lemma UndoIsDead(events: seq<Event>)
    ensures Run(Initial, events).deletedStock.None?
    ensures !Run(Initial, events).showUndo
    ensures Step(Run(Initial, events), Undo) == Run(Initial, events)
  {
    RunKeepsUndoEmpty(Initial, events);
  }

}

=== FILE: item_list.dfy ===
/** The pure list operations App performs on its item cache: the
    case-insensitive first-match search, the update-in-place by id after a
    successful PUT and the delete-by-id filter after a successful DELETE. */
module ItemList {
  import opened Options
  import opened JsString
  import opened Stock

  // -------------------------------------------------------------- search

  /** The needle `handleSearch` derives from the term: lower-cased, then trimmed. */
  function Needle(term: string): string
  {
    Trim(ToLower(term))
  }

  /** An item matches when its lower-cased stock number or lower-cased product
      name includes the needle. */
  predicate Matches(item: StockItem, needle: string)
  {
    Includes(ToLower(item.stockNumber), needle) || Includes(ToLower(item.productName), needle)
  }

  /** Position of the first item at or after `from` that matches. */
  function FirstMatchFrom(items: seq<StockItem>, needle: string, from: nat): (r: Option<nat>)
    requires from <= |items|
    ensures r.Some? ==> from <= r.value < |items| && Matches(items[r.value], needle)
    ensures r.Some? ==> forall j :: from <= j < r.value ==> !Matches(items[j], needle)
    ensures r.None? ==> forall j :: from <= j < |items| ==> !Matches(items[j], needle)
    decreases |items| - from
  {
    if from == |items| then None
    else if Matches(items[from], needle) then Some(from)
    else FirstMatchFrom(items, needle, from + 1)
  }

  /** `handleSearch`: null for a term that is blank after trimming, otherwise
      the first item in list order that matches, or null. */
  function Search(items: seq<StockItem>, term: string): (r: Option<StockItem>)
    ensures AllWhitespace(term) ==> r.None?
    ensures r.Some? ==> r.value in items && Matches(r.value, Needle(term))
    ensures !AllWhitespace(term) && r.None? ==> forall i :: 0 <= i < |items| ==> !Matches(items[i], Needle(term))
  {
    ToLowerFacts(term);
    var needle := Needle(term);
    if |needle| == 0 then None
    else
      match FirstMatchFrom(items, needle, 0)
      case None => None
      case Some(i) => Some(items[i])
  }

  /** What the search returns for a non-blank term is the first match: any
      matching item with no matching item before it is the result. */
  lemma SearchReturnsFirstMatch(items: seq<StockItem>, term: string, i: nat)
    requires i < |items|
    ensures
      && !AllWhitespace(term)
      && Matches(items[i], Needle(term))
      && (forall j :: 0 <= j < i ==> !Matches(items[j], Needle(term)))
      ==> Search(items, term) == Some(items[i])
  {
    if !AllWhitespace(term) && Matches(items[i], Needle(term)) && forall j :: 0 <= j < i ==> !Matches(items[j], Needle(term)) {
      ToLowerFacts(term);
      var r := FirstMatchFrom(items, Needle(term), 0);
      assert r.Some? && r.value == i;
    }
  }

  /** Matching ignores the case of the term: lower-casing it first changes
      nothing. */
  lemma SearchIgnoresTermCase(items: seq<StockItem>, term: string)
    ensures Search(items, ToLower(term)) == Search(items, term)
  {
    ToLowerFacts(term);
  }

  /** A term occurs in an item when its lower-cased, trimmed form occurs at
      some position of the lower-cased stock number or product name. */
  lemma MatchesIffOccurs(item: StockItem, needle: string)
    ensures Matches(item, needle) <==>
      (exists k :: OccursAt(ToLower(item.stockNumber), needle, k)) ||
      (exists k :: OccursAt(ToLower(item.productName), needle, k))
  {
    IncludesIff(ToLower(item.stockNumber), needle);
    IncludesIff(ToLower(item.productName), needle);
  }

  // -------------------------------------------------------------- update

  /** The record the cache holds after a successful PUT of `updated`: the
      submitted fields with a client-side timestamp. */
  function Stamped(updated: StockItem, now: string): StockItem
  {
    updated.(updatedAt := now)
  }

  /** `stockItems.map(item => item.id === updated.id ? {...updated, updatedAt: now} : item)` */
  function UpdateById(items: seq<StockItem>, updated: StockItem, now: string): (r: seq<StockItem>)
    ensures |r| == |items|
    ensures forall i :: 0 <= i < |items| && items[i].id == updated.id ==> r[i] == Stamped(updated, now)
    ensures forall i :: 0 <= i < |items| && items[i].id != updated.id ==> r[i] == items[i]
    decreases |items|
  {
    if |items| == 0 then []
    else
      var head := if items[0].id == updated.id then Stamped(updated, now) else items[0];
      [head] + UpdateById(items[1..], updated, now)
  }

  /** The update keeps every position's id, so the list still holds the same
      ids in the same order. */
  lemma UpdateKeepsIds(items: seq<StockItem>, updated: StockItem, now: string)
    ensures forall i :: 0 <= i < |items| ==> UpdateById(items, updated, now)[i].id == items[i].id
  {
  }

  /** Applying the same update twice is applying it once. */
  lemma UpdateIsIdempotent(items: seq<StockItem>, updated: StockItem, now: string)
    ensures UpdateById(UpdateById(items, updated, now), updated, now) == UpdateById(items, updated, now)
  {
    var once := UpdateById(items, updated, now);
    assert forall i :: 0 <= i < |items| ==> once[i].id == items[i].id;
  }

  /** An update whose id is not in the list leaves it as it was. */
  lemma UpdateOfAbsentId(items: seq<StockItem>, updated: StockItem, now: string)
    requires forall i :: 0 <= i < |items| ==> items[i].id != updated.id
    ensures UpdateById(items, updated, now) == items
  {
  }

  // -------------------------------------------------------------- delete

  /** `stockItems.filter(item => item.id !== id)` */
  function DeleteById(items: seq<StockItem>, id: string): (r: seq<StockItem>)
    ensures forall x: StockItem :: x in r ==> x.id != id
    ensures forall x: StockItem :: x.id != id ==> multiset(r)[x] == multiset(items)[x]
    ensures multiset(r) <= multiset(items)
    decreases |items|
  {
    if |items| == 0 then []
    else
      var rest := DeleteById(items[1..], id);
      assert items == [items[0]] + items[1..];
      if items[0].id == id then rest else [items[0]] + rest
  }

  /** The filter keeps order: it distributes over concatenation. Together
      with its effect on one item this determines the result completely. */
  lemma {:induction false} DeleteDistributes(a: seq<StockItem>, b: seq<StockItem>, id: string)
    ensures DeleteById(a + b, id) == DeleteById(a, id) + DeleteById(b, id)
    decreases |a|
  {
    if |a| == 0 {
      assert a + b == b;
    } else {
      assert (a + b)[1..] == a[1..] + b;
      DeleteDistributes(a[1..], b, id);
    }
  }

  /** On one item the filter keeps it exactly when its id differs. */
  lemma DeleteSingle(x: StockItem, id: string)
    ensures DeleteById([x], id) == if x.id == id then [] else [x]
  {
  }

  /** Deleting an id that no item has (the store reports success even then)
      leaves the list as it was. */
  lemma {:induction false} DeleteOfAbsentId(items: seq<StockItem>, id: string)
    requires forall i :: 0 <= i < |items| ==> items[i].id != id
    ensures DeleteById(items, id) == items
    decreases |items|
  {
    if |items| > 0 {
      var tail := items[1..];
      assert forall i :: 0 <= i < |tail| ==> tail[i] == items[i + 1];
      DeleteOfAbsentId(tail, id);
      assert items[0].id != id;
      assert DeleteById(items, id) == [items[0]] + DeleteById(tail, id);
      assert items == [items[0]] + tail;
    }
  }

  /** Deleting the same id twice is deleting it once. */
  lemma DeleteIsIdempotent(items: seq<StockItem>, id: string)
    ensures DeleteById(DeleteById(items, id), id) == DeleteById(items, id)
  {
    var once := DeleteById(items, id);
    assert forall i :: 0 <= i < |once| ==> once[i] in once;
    DeleteOfAbsentId(once, id);
  }

}

=== FILE: js_number.dfy ===
/** JavaScript numbers, as far as the application observes them: NaN, the two
    infinities and finite values. Rounding to IEEE doubles is not modelled;
    -0 behaves like 0 for every operator used here, so it is not a case. */
module JsNumber {

  datatype Num = NaN | PosInf | NegInf | Fin(r: real)

  /** `a < b` on numbers: false as soon as one side is NaN. */
  predicate Less(a: Num, b: Num)
  {
    match (a, b)
    case (NegInf, Fin(_)) => true
    case (NegInf, PosInf) => true
    case (Fin(x), Fin(y)) => x < y
    case (Fin(_), PosInf) => true
    case _ => false
  }

  /** `a === b` on numbers: NaN equals nothing, not even itself. */
  predicate StrictEquals(a: Num, b: Num)
  {
    !a.NaN? && a == b
  }

  /** `Number.isInteger(n)`: finite with no fractional part. */
  predicate IsInteger(n: Num)
  {
    n.Fin? && n.r == n.r.Floor as real
  }

  /** On numbers other than NaN, `<` is a strict total order. */
  lemma LessIsStrictTotalOrder(a: Num, b: Num, c: Num)
    requires !a.NaN? && !b.NaN? && !c.NaN?
    ensures !Less(a, a)
    ensures Less(a, b) ==> !Less(b, a)
    ensures a != b ==> Less(a, b) || Less(b, a)
    ensures Less(a, b) && Less(b, c) ==> Less(a, c)
  {
  }

  /** With NaN on either side, both `<` and `>` are false: the comparator of the
      table treats NaN as equal to every number. */
  lemma NaNIsUnordered(n: Num)
    ensures !Less(NaN, n) && !Less(n, NaN)
    ensures !StrictEquals(NaN, n)
  {
  }

}

=== FILE: js_string.dfy ===
/** The handful of JavaScript string operations the application relies on:
    `trim`, `toLowerCase`, `includes`, `replace` with a string pattern,
    `parseInt(_, 10)`, `Number.prototype.toString`, `padStart`, the
    `[a-zA-Z0-9]` character class and the relational `<` on strings.
    Strings are sequences of characters; `<` compares character codes. */
module JsString {
  import opened Options

  /** WhiteSpace and LineTerminator of ECMA-262: what `trim` and `parseInt` skip. */
  predicate IsWhitespace(c: char)
  {
    || c == '\t' || c == '\n' || c == '\U{0B}' || c == '\U{0C}' || c == '\r'
    || c == ' ' || c == '\U{A0}' || c == '\U{1680}'
    || ('\U{2000}' <= c <= '\U{200A}')
    || c == '\U{2028}' || c == '\U{2029}' || c == '\U{202F}' || c == '\U{205F}'
    || c == '\U{3000}' || c == '\U{FEFF}'
  }

  predicate AllWhitespace(s: string)
  {
    forall i :: 0 <= i < |s| ==> IsWhitespace(s[i])
  }

  // ---------------------------------------------------------------- trim

  /** `s.trimStart()`: the longest suffix of `s` not starting with whitespace. */
  function TrimStart(s: string): (r: string)
    ensures |r| <= |s| && r == s[|s| - |r|..]
    ensures AllWhitespace(s[..|s| - |r|])
    ensures |r| > 0 ==> !IsWhitespace(r[0])
    decreases |s|
  {
    if |s| > 0 && IsWhitespace(s[0]) then
      var r := TrimStart(s[1..]);
      assert s[..|s| - |r|] == [s[0]] + s[1..][..|s| - 1 - |r|];
      r
    else
      s
  }

  /** `s.trimEnd()`: the longest prefix of `s` not ending with whitespace. */
  function TrimEnd(s: string): (r: string)
    ensures |r| <= |s| && r == s[..|r|]
    ensures AllWhitespace(s[|r|..])
    ensures |r| > 0 ==> !IsWhitespace(r[|r| - 1])
    decreases |s|
  {
    if |s| > 0 && IsWhitespace(s[|s| - 1]) then
      var r := TrimEnd(s[..|s| - 1]);
      assert s[|r|..] == s[..|s| - 1][|r|..] + [s[|s| - 1]];
      r
    else
      s
  }

  /** Number of whitespace characters `trim` drops at the front of `s`. */
  function LeadingWhitespace(s: string): nat
  {
    |s| - |TrimStart(s)|
  }

  /** `s.trim()`: `s` is whitespace, then the result, then whitespace, and the
      result neither starts nor ends with whitespace. It is empty exactly when
      `s` is all whitespace. */
  function Trim(s: string): (r: string)
    ensures LeadingWhitespace(s) + |r| <= |s|
    ensures r == s[LeadingWhitespace(s)..LeadingWhitespace(s) + |r|]
    ensures AllWhitespace(s[..LeadingWhitespace(s)])
    ensures AllWhitespace(s[LeadingWhitespace(s) + |r|..])
    ensures |r| > 0 ==> !IsWhitespace(r[0]) && !IsWhitespace(r[|r| - 1])
    ensures |r| == 0 <==> AllWhitespace(s)
  {
    var t := TrimStart(s);
    var r := TrimEnd(t);
    var k := LeadingWhitespace(s);
    assert s[k + |r|..] == t[|r|..];
    assert |r| == 0 ==> s == s[..k] + t;
    r
  }

  /** A whitespace prefix is dropped by `trimStart`. */
  lemma {:induction false} TrimStartSkips(w: string, t: string)
    requires AllWhitespace(w)
    requires |t| > 0 ==> !IsWhitespace(t[0])
    ensures TrimStart(w + t) == t
    decreases |w|
  {
    if |w| > 0 {
      assert (w + t)[1..] == w[1..] + t;
      TrimStartSkips(w[1..], t);
    } else {
      assert w + t == t;
    }
  }

  /** A whitespace suffix is dropped by `trimEnd`. */
  lemma {:induction false} TrimEndSkips(t: string, w: string)
    requires AllWhitespace(w)
    requires |t| > 0 ==> !IsWhitespace(t[|t| - 1])
    ensures TrimEnd(t + w) == t
    decreases |w|
  {
    if |w| > 0 {
      assert (t + w)[..|t + w| - 1] == t + w[..|w| - 1];
      TrimEndSkips(t, w[..|w| - 1]);
    } else {
      assert t + w == t;
    }
  }

  /** `trim` recovers the core of any whitespace-padded string whose core has
      no whitespace at its ends: the counterpart of the decomposition `Trim`
      promises. */
  lemma TrimOfPadded(w1: string, c: string, w2: string)
    requires AllWhitespace(w1) && AllWhitespace(w2)
    requires |c| > 0 ==> !IsWhitespace(c[0]) && !IsWhitespace(c[|c| - 1])
    ensures Trim(w1 + c + w2) == c
  {
    if |c| > 0 {
      assert w1 + c + w2 == w1 + (c + w2);
      TrimStartSkips(w1, c + w2);
      TrimEndSkips(c, w2);
    } else {
      assert w1 + c + w2 == w1 + w2;
      var s := w1 + w2;
      assert forall i :: 0 <= i < |s| ==> IsWhitespace(s[i]) by {
        forall i | 0 <= i < |s| ensures IsWhitespace(s[i]) {
          if i < |w1| { assert s[i] == w1[i]; } else { assert s[i] == w2[i - |w1|]; }
        }
      }
    }
  }

  // ---------------------------------------------------------- lower case

  /** `toLowerCase` on one character, for the ASCII letters. */
  function ToLowerChar(c: char): char
  {
    if 'A' <= c <= 'Z' then (c as int + 32) as char else c
  }

  /** `s.toLowerCase()`, restricted to ASCII letters: no capital is left,
      every capital becomes the same letter in lower case, and every other
      character stays where it was. */
  function ToLower(s: string): (r: string)
    ensures |r| == |s|
    ensures forall i :: 0 <= i < |r| ==> !('A' <= r[i] <= 'Z')
    ensures forall i :: 0 <= i < |s| && 'A' <= s[i] <= 'Z' ==> r[i] as int == s[i] as int + ('a' as int - 'A' as int)
    ensures forall i :: 0 <= i < |s| && !('A' <= s[i] <= 'Z') ==> r[i] == s[i]
  {
    seq(|s|, i requires 0 <= i < |s| => ToLowerChar(s[i]))
  }

  /** Lower-casing twice is lower-casing once, and it neither creates nor
      removes whitespace. */
  lemma ToLowerFacts(s: string)
    ensures ToLower(ToLower(s)) == ToLower(s)
    ensures AllWhitespace(ToLower(s)) <==> AllWhitespace(s)
  {
    var l := ToLower(s);
    assert forall i :: 0 <= i < |s| ==> (IsWhitespace(l[i]) <==> IsWhitespace(s[i]));
  }

  // ------------------------------------------------------------ includes

  /** `needle` occurs in `hay` starting at position `i`. */
  predicate OccursAt(hay: string, needle: string, i: int)
  {
    0 <= i && i + |needle| <= |hay| && hay[i..i + |needle|] == needle
  }

  /** `hay.includes(needle)`, scanning from the left. */
  predicate Includes(hay: string, needle: string)
    decreases |hay|
  {
    || (|needle| <= |hay| && hay[..|needle|] == needle)
    || (|hay| > 0 && Includes(hay[1..], needle))
  }

  /** The scan finds `needle` exactly when it occurs somewhere in `hay`. */
  lemma {:induction false} IncludesIff(hay: string, needle: string)
    ensures Includes(hay, needle) <==> exists i :: OccursAt(hay, needle, i)
    decreases |hay|
  {
    if |needle| <= |hay| && hay[..|needle|] == needle {
      assert OccursAt(hay, needle, 0);
    } else if |hay| > 0 {
      IncludesIff(hay[1..], needle);
      if Includes(hay[1..], needle) {
        var i :| OccursAt(hay[1..], needle, i);
        assert hay[1..][i..i + |needle|] == hay[i + 1..i + 1 + |needle|];
        assert OccursAt(hay, needle, i + 1);
      } else {
        forall i | OccursAt(hay, needle, i) ensures false {
          assert i != 0;
          assert hay[1..][i - 1..i - 1 + |needle|] == hay[i..i + |needle|];
          assert OccursAt(hay[1..], needle, i - 1);
        }
      }
    }
  }

  // ------------------------------------------------- character classes

  /** The regular-expression class `[a-zA-Z0-9]`. */
  predicate IsAsciiAlnum(c: char)
  {
    ('a' <= c <= 'z') || ('A' <= c <= 'Z') || ('0' <= c <= '9')
  }

  /** `/^[a-zA-Z0-9]+$/.test(s)`. */
  predicate MatchesAlnum(s: string)
  {
    |s| > 0 && forall i :: 0 <= i < |s| ==> IsAsciiAlnum(s[i])
  }

  predicate IsDigit(c: char)
  {
    '0' <= c <= '9'
  }

  predicate AllDigits(s: string)
  {
    forall i :: 0 <= i < |s| ==> IsDigit(s[i])
  }

  function DigitValue(c: char): nat
    requires IsDigit(c)
  {
    c as int - '0' as int
  }

  function DigitChar(d: nat): (c: char)
    requires d < 10
    ensures IsDigit(c) && DigitValue(c) == d
  {
    ('0' as int + d) as char
  }

  // ------------------------------------------------------------- numbers

  /** Decimal value of a digit string, most significant digit first. */
  function DigitsValue(s: string): nat
    requires AllDigits(s)
    decreases |s|
  {
    if |s| == 0 then 0 else DigitsValue(s[..|s| - 1]) * 10 + DigitValue(s[|s| - 1])
  }

  /** The longest prefix of `s` made of decimal digits. */
  function LeadingDigits(s: string): (r: string)
    ensures |r| <= |s| && r == s[..|r|]
    ensures AllDigits(r)
    ensures |r| < |s| ==> !IsDigit(s[|r|])
    decreases |s|
  {
    if |s| > 0 && IsDigit(s[0]) then [s[0]] + LeadingDigits(s[1..]) else []
  }

  /** `parseInt(s, 10)`: skip leading whitespace, read an optional sign and the
      longest run of decimal digits; `None` stands for NaN (no digit at all).
      Whatever follows the digits is ignored. The contract reads it off the
      first character; `ParseIntSkipsWhitespace` covers a whitespace start. */
  function ParseInt(s: string): (r: Option<int>)
    ensures AllWhitespace(s) ==> r.None?
    ensures |s| > 0 && IsDigit(s[0]) ==> r == Some(DigitsValue(LeadingDigits(s)))
    ensures |s| > 1 && s[0] == '-' && IsDigit(s[1]) ==> r == Some(-(DigitsValue(LeadingDigits(s[1..])) as int))
    ensures |s| > 1 && s[0] == '+' && IsDigit(s[1]) ==> r == Some(DigitsValue(LeadingDigits(s[1..])))
    ensures |s| > 0 && (s[0] == '-' || s[0] == '+') && (|s| == 1 || !IsDigit(s[1])) ==> r.None?
    ensures |s| > 0 && !IsWhitespace(s[0]) && !IsDigit(s[0]) && s[0] != '-' && s[0] != '+' ==> r.None?
    decreases |s|
  {
    if |s| > 0 && IsWhitespace(s[0]) then ParseInt(s[1..]) else ReadSigned(s)
  }

  /** What `parseInt` reads once the whitespace is skipped: an optional sign,
      then the digit run after it. */
  function ReadSigned(t: string): (r: Option<int>)
    ensures |t| == 0 ==> r.None?
    ensures |t| > 0 && IsDigit(t[0]) ==> r == Some(DigitsValue(LeadingDigits(t)))
    ensures |t| > 1 && t[0] == '-' && IsDigit(t[1]) ==> r == Some(-(DigitsValue(LeadingDigits(t[1..])) as int))
    ensures |t| > 1 && t[0] == '+' && IsDigit(t[1]) ==> r == Some(DigitsValue(LeadingDigits(t[1..])))
    ensures |t| > 0 && (t[0] == '-' || t[0] == '+') && (|t| == 1 || !IsDigit(t[1])) ==> r.None?
    ensures |t| > 0 && !IsDigit(t[0]) && t[0] != '-' && t[0] != '+' ==> r.None?
  {
    var signed := |t| > 0 && (t[0] == '-' || t[0] == '+');
    var digits := LeadingDigits(if signed then t[1..] else t);
    if |digits| == 0 then None
    else if signed && t[0] == '-' then Some(-(DigitsValue(digits) as int))
    else Some(DigitsValue(digits))
  }

  /** Decimal digits of `n` without leading zeros (`"0"` for zero). */
  function NatToDigits(n: nat): (r: string)
    ensures |r| > 0 && AllDigits(r) && DigitsValue(r) == n
    ensures n < 10 <==> |r| == 1
    ensures n >= 10 ==> r[0] != '0'
    decreases n
  {
    if n < 10 then [DigitChar(n)]
    else
      var r := NatToDigits(n / 10) + [DigitChar(n % 10)];
      assert r[..|r| - 1] == NatToDigits(n / 10);
      r
  }

  /** `n.toString()` for an integer of at most 21 digits: a minus sign
      exactly for negative numbers, then the canonical decimal digits of the
      magnitude, with no leading zero. */
  function IntToString(n: int): (r: string)
    ensures |r| > 0
    ensures r[0] == '-' <==> n < 0
    ensures n >= 0 ==> AllDigits(r) && DigitsValue(r) == n && (|r| > 1 ==> r[0] != '0')
    ensures n < 0 ==> |r| > 1 && AllDigits(r[1..]) && DigitsValue(r[1..]) == -n && (|r| > 2 ==> r[1] != '0')
  {
    assert n < 0 ==> ("-" + NatToDigits(-n))[1..] == NatToDigits(-n);
    if n < 0 then "-" + NatToDigits(-n) else NatToDigits(n)
  }

  /** `s.padStart(len, fill)`: `fill` characters in front of `s` up to `len`. */
  function PadStart(s: string, len: nat, fill: char): (r: string)
    ensures |r| == if |s| >= len then |s| else len
    ensures r[|r| - |s|..] == s
    ensures forall i :: 0 <= i < |r| - |s| ==> r[i] == fill
  {
    if |s| >= len then s else seq(len - |s|, _ => fill) + s
  }

  /** Digit strings keep their value under leading zeros. */
  lemma {:induction false} LeadingZerosKeepValue(z: string, ds: string)
    requires forall i :: 0 <= i < |z| ==> z[i] == '0'
    requires AllDigits(ds)
    ensures AllDigits(z + ds)
    ensures DigitsValue(z + ds) == DigitsValue(ds)
    decreases |ds| + |z|
  {
    var s := z + ds;
    assert AllDigits(s) by {
      forall i | 0 <= i < |s| ensures IsDigit(s[i]) {
        if i < |z| { assert s[i] == z[i]; } else { assert s[i] == ds[i - |z|]; }
      }
    }
    if |ds| > 0 {
      assert s[..|s| - 1] == z + ds[..|ds| - 1];
      LeadingZerosKeepValue(z, ds[..|ds| - 1]);
    } else if |z| > 0 {
      assert s == z;
      assert s[..|s| - 1] == z[..|z| - 1] + ds;
      LeadingZerosKeepValue(z[..|z| - 1], ds);
    }
  }

  /** Leading whitespace does not change what `parseInt` reads. */
  lemma {:induction false} ParseIntSkipsWhitespace(w: string, t: string)
    requires AllWhitespace(w)
    ensures ParseInt(w + t) == ParseInt(t)
    decreases |w|
  {
    if |w| > 0 {
      assert (w + t)[1..] == w[1..] + t;
      ParseIntSkipsWhitespace(w[1..], t);
    } else {
      assert w + t == t;
    }
  }

  /** `parseInt` reads back a digit run followed by anything that is not a digit. */
  lemma ParseDigitsThenRest(ds: string, rest: string)
    requires |ds| > 0 && AllDigits(ds)
    requires |rest| > 0 ==> !IsDigit(rest[0])
    ensures ParseInt(ds + rest) == Some(DigitsValue(ds))
  {
    DigitRunIsLeading(ds, rest);
  }

  /** `parseInt` of a string of digits only reads all of it. */
  lemma ParseIntOfDigits(ds: string)
    requires |ds| > 0 && AllDigits(ds)
    ensures ParseInt(ds) == Some(DigitsValue(ds))
  {
    assert IsDigit(ds[0]);
    assert LeadingDigits(ds) == ds by {
      assert ds + [] == ds;
      DigitRunIsLeading(ds, []);
    }
  }

  /** The digit run at the front of `ds + rest` is exactly `ds`. */
  lemma {:induction false} DigitRunIsLeading(ds: string, rest: string)
    requires AllDigits(ds)
    requires |rest| > 0 ==> !IsDigit(rest[0])
    ensures LeadingDigits(ds + rest) == ds
    decreases |ds|
  {
    if |ds| > 0 {
      assert (ds + rest)[1..] == ds[1..] + rest;
      DigitRunIsLeading(ds[1..], rest);
    } else {
      assert ds + rest == rest;
    }
  }

  /** `parseInt(n.toString(), 10) == n` for every integer. */
  lemma ParseIntOfIntToString(n: int)
    ensures ParseInt(IntToString(n)) == Some(n)
  {
    var ds := NatToDigits(if n < 0 then -n else n);
    if n < 0 {
      var s := "-" + ds;
      assert s[1..] == ds + [];
      DigitRunIsLeading(ds, []);
      assert s[0] == '-' && IsDigit(s[1]);
    } else {
      assert ds + [] == ds;
      ParseDigitsThenRest(ds, []);
    }
  }

  // ------------------------------------------------------------- replace

  /** `s.replace(pat, rep)` with a string pattern: only the first occurrence
      of `pat` is replaced; without one, `s` is returned unchanged. What that
      means is stated by `ReplaceFirstAbsent` and `ReplaceFirstAt`. */
  function ReplaceFirst(s: string, pat: string, rep: string): string
    decreases |s|
  {
    if |s| < |pat| then s
    else if s[..|pat|] == pat then rep + s[|pat|..]
    else [s[0]] + ReplaceFirst(s[1..], pat, rep)
  }

  /** A string in which `pat` does not occur is left unchanged. */
  lemma {:induction false} ReplaceFirstAbsent(s: string, pat: string, rep: string)
    requires forall k :: !OccursAt(s, pat, k)
    ensures ReplaceFirst(s, pat, rep) == s
    decreases |s|
  {
    if |s| < |pat| {
    } else if s[..|pat|] == pat {
      assert OccursAt(s, pat, 0);
    } else {
      var t := s[1..];
      forall k ensures !OccursAt(t, pat, k) {
        if 0 <= k && k + |pat| <= |t| {
          assert t[k..k + |pat|] == s[k + 1..k + 1 + |pat|];
          assert !OccursAt(s, pat, k + 1);
        }
      }
      ReplaceFirstAbsent(t, pat, rep);
      assert [s[0]] + t == s;
    }
  }

  /** When the first occurrence of `pat` is at `k`, exactly that occurrence
      is replaced. */
  lemma {:induction false} ReplaceFirstAt(s: string, pat: string, rep: string, k: nat)
    requires OccursAt(s, pat, k)
    requires forall j :: 0 <= j < k ==> !OccursAt(s, pat, j)
    ensures ReplaceFirst(s, pat, rep) == s[..k] + rep + s[k + |pat|..]
    decreases |s|
  {
    if s[..|pat|] == pat {
      assert OccursAt(s, pat, 0);
      assert s[..0] + rep + s[|pat|..] == rep + s[|pat|..];
    } else {
      var t := s[1..];
      assert k >= 1 && |s| >= 1;
      assert OccursAt(t, pat, k - 1) by {
        assert t[k - 1..k - 1 + |pat|] == s[k..k + |pat|];
      }
      forall j | 0 <= j < k - 1 ensures !OccursAt(t, pat, j) {
        assert t[j..j + |pat|] == s[j + 1..j + 1 + |pat|];
        assert !OccursAt(s, pat, j + 1);
      }
      ReplaceFirstAt(t, pat, rep, k - 1);
      assert ReplaceFirst(s, pat, rep) == [s[0]] + ReplaceFirst(t, pat, rep);
      assert s[..k] + rep + s[k + |pat|..] == [s[0]] + (t[..k - 1] + rep + t[k - 1 + |pat|..]) by {
        assert s[..k] == [s[0]] + t[..k - 1];
        assert s[k + |pat|..] == t[k - 1 + |pat|..];
      }
    }
  }

  /** A string that starts with `pat` loses exactly that prefix. */
  lemma ReplaceFirstAtFront(pat: string, rest: string)
    ensures ReplaceFirst(pat + rest, pat, "") == rest
  {
    var s := pat + rest;
    assert s[..|pat|] == pat && s[|pat|..] == rest;
  }

  // ---------------------------------------------------------- comparison

  /** `a < b` on strings: lexicographic on character codes, a proper prefix
      coming first. */
  predicate StrLess(a: string, b: string)
    decreases |a|
  {
    |b| > 0 && (|a| == 0 || a[0] < b[0] || (a[0] == b[0] && StrLess(a[1..], b[1..])))
  }

  lemma {:induction false} StrLessIrreflexive(a: string)
    ensures !StrLess(a, a)
    decreases |a|
  {
    if |a| > 0 {
      StrLessIrreflexive(a[1..]);
    }
  }

  lemma {:induction false} StrLessAsymmetric(a: string, b: string)
    ensures StrLess(a, b) ==> !StrLess(b, a)
    decreases |a|
  {
    if |a| > 0 && |b| > 0 && a[0] == b[0] {
      StrLessAsymmetric(a[1..], b[1..]);
    }
  }

  lemma {:induction false} StrLessTransitive(a: string, b: string, c: string)
    ensures StrLess(a, b) && StrLess(b, c) ==> StrLess(a, c)
    decreases |a|
  {
    if |a| > 0 && |b| > 0 && |c| > 0 {
      StrLessTransitive(a[1..], b[1..], c[1..]);
    }
  }

  lemma {:induction false} StrLessTotal(a: string, b: string)
    ensures a == b || StrLess(a, b) || StrLess(b, a)
    decreases |a|
  {
    if |a| > 0 && |b| > 0 && a[0] == b[0] {
      StrLessTotal(a[1..], b[1..]);
      if a[1..] == b[1..] {
        assert a == [a[0]] + a[1..] && b == [b[0]] + b[1..];
      }
    }
  }

}

=== FILE: options.dfy ===
/** The optional value the application expresses with `null` (a search that
    finds nothing, no item being edited, no stored deleted item). */
module Options {

  datatype Option<+T> = None | Some(value: T)

}

=== FILE: stock.dfy ===
/** The record the whole application manipulates (`StockItem`) and the shape of
    the add/edit form (`Omit<StockItem, 'id' | 'updatedAt'>`). */
module Stock {
  import opened JsNumber

  /** A stock record. `id` is assigned by the store and `updatedAt` is an opaque
      timestamp string; quantity and price are JavaScript numbers. */
  datatype StockItem = StockItem(
    id: string,
    stockNumber: string,
    productName: string,
    quantity: Num,
    price: Num,
    updatedAt: string)

  /** The four user-editable fields, as the form submits them. */
  datatype Draft = Draft(stockNumber: string, productName: string, quantity: Num, price: Num)

  /** The editable fields of an existing record. */
  function DraftOf(item: StockItem): Draft
  {
    Draft(item.stockNumber, item.productName, item.quantity, item.price)
  }

}

=== FILE: stock_numbers.dfy ===
/** The stock number the add form suggests: strip the first "STK" from every
    existing stock number, `parseInt` what is left, drop the NaNs, take the
    maximum plus one (1 when nothing parsed) and write it back as "STK"
    followed by the number left-padded with '0' to three characters. */
module StockNumbers {
  import opened Options
  import opened JsString
  import opened Stock

  const Prefix := "STK"

  /** `parseInt(stockNumber.replace('STK', ''), 10)`; `None` is NaN. Only the
      first "STK" is removed, wherever it stands: "1STK2" reads as 12, " STK5"
      as 5. What that means case by case is stated by `SuffixValueCases` and
      `SuffixValueAnywhere`. */
  function SuffixValue(stockNumber: string): Option<int>
  {
    ParseInt(ReplaceFirst(stockNumber, Prefix, ""))
  }

  /** A stock number starting with "STK" reads as the rest; one without "STK"
      anywhere reads as a whole. */
  lemma SuffixValueCases(stockNumber: string)
    ensures |stockNumber| >= 3 && stockNumber[..3] == Prefix ==>
      SuffixValue(stockNumber) == ParseInt(stockNumber[3..])
    ensures (forall k :: !OccursAt(stockNumber, Prefix, k)) ==>
      SuffixValue(stockNumber) == ParseInt(stockNumber)
  {
    if (forall k :: !OccursAt(stockNumber, Prefix, k)) {
      ReplaceFirstAbsent(stockNumber, Prefix, "");
    }
    if |stockNumber| >= 3 && stockNumber[..3] == Prefix {
      assert stockNumber == Prefix + stockNumber[3..];
      ReplaceFirstAtFront(Prefix, stockNumber[3..]);
    }
  }

  /** Wherever the first "STK" stands, the suffix is `parseInt` of the text
      around it. */
  lemma SuffixValueAnywhere(stockNumber: string, k: nat)
    ensures OccursAt(stockNumber, Prefix, k) && (forall j :: 0 <= j < k ==> !OccursAt(stockNumber, Prefix, j)) ==>
      SuffixValue(stockNumber) == ParseInt(stockNumber[..k] + stockNumber[k + |Prefix|..])
  {
    if OccursAt(stockNumber, Prefix, k) && (forall j :: 0 <= j < k ==> !OccursAt(stockNumber, Prefix, j)) {
      ReplaceFirstAt(stockNumber, Prefix, "", k);
      assert stockNumber[..k] + "" + stockNumber[k + |Prefix|..] == stockNumber[..k] + stockNumber[k + |Prefix|..];
    }
  }

  /** What `parseInt` makes of every stock number, in list order. */
  function Suffixes(items: seq<StockItem>): seq<Option<int>>
  {
    seq(|items|, i requires 0 <= i < |items| => SuffixValue(items[i].stockNumber))
  }

  /** `.filter(n => !isNaN(n))`: the values that parsed, NaN dropped. */
  function Parsed(s: seq<Option<int>>): (r: seq<int>)
    ensures forall v :: v in r <==> Some(v) in s
    decreases |s|
  {
    if |s| == 0 then []
    else
      var rest := Parsed(s[1..]);
      assert forall o :: o in s <==> o == s[0] || o in s[1..];
      match s[0]
      case None => rest
      case Some(v) => [v] + rest
  }

  /** `Math.max(...s)`. */
  function Max(s: seq<int>): (m: int)
    requires |s| > 0
    ensures m in s
    ensures forall x :: x in s ==> x <= m
  {
    if |s| == 1 then s[0]
    else
      var m := Max(s[1..]);
      assert forall x :: x in s ==> x == s[0] || x in s[1..];
      if s[0] >= m then s[0] else m
  }

  /** The numeric part of the suggestion for the parse results `vals`: above
      every value that parsed and one more than one of them, or 1 when none
      did. */
  function NextFrom(vals: seq<Option<int>>): (n: int)
    ensures forall v :: Some(v) in vals ==> v < n
    ensures (exists v :: Some(v) in vals) ==> Some(n - 1) in vals
    ensures (forall v :: Some(v) !in vals) ==> n == 1
  {
    var nums := Parsed(vals);
    if |nums| > 0 then Max(nums) + 1 else 1
  }

  /** `NextFrom` depends only on which values parsed, not on where or how
      often. */
  lemma NextFromBySet(a: seq<Option<int>>, b: seq<Option<int>>)
    requires forall v :: Some(v) in a <==> Some(v) in b
    ensures NextFrom(a) == NextFrom(b)
  {
    var na, nb := NextFrom(a), NextFrom(b);
    if exists v :: Some(v) in a {
      assert Some(na - 1) in b && Some(nb - 1) in a;
    }
  }

  /** The number the suggestion is built from: above every suffix of the
      list that parses, one more than one of them, and 1 when none parses. */
  function NextNumber(items: seq<StockItem>): (n: int)
    ensures forall i :: 0 <= i < |items| && SuffixValue(items[i].stockNumber).Some? ==>
      SuffixValue(items[i].stockNumber).value < n
    ensures (exists i :: 0 <= i < |items| && SuffixValue(items[i].stockNumber).Some?) ==>
      exists i :: 0 <= i < |items| && SuffixValue(items[i].stockNumber) == Some(n - 1)
    ensures (forall i :: 0 <= i < |items| ==> SuffixValue(items[i].stockNumber).None?) ==> n == 1
  {
    NextFromSuffixes(items);
    NextFrom(Suffixes(items))
  }

  /** `NextFrom`'s facts about parse results, restated per item. */
  lemma NextFromSuffixes(items: seq<StockItem>)
    ensures var n := NextFrom(Suffixes(items));
      (forall i :: 0 <= i < |items| && SuffixValue(items[i].stockNumber).Some? ==>
        SuffixValue(items[i].stockNumber).value < n) &&
      ((exists i :: 0 <= i < |items| && SuffixValue(items[i].stockNumber).Some?) ==>
        exists i :: 0 <= i < |items| && SuffixValue(items[i].stockNumber) == Some(n - 1)) &&
      ((forall i :: 0 <= i < |items| ==> SuffixValue(items[i].stockNumber).None?) ==> n == 1)
  {
    var vals := Suffixes(items);
    NextFromIndexed(vals);
    assert forall i :: 0 <= i < |items| ==> vals[i] == SuffixValue(items[i].stockNumber);
  }

  /** `NextFrom`'s facts, by position in the list of parse results. */
  lemma NextFromIndexed(vals: seq<Option<int>>)
    ensures var n := NextFrom(vals);
      (forall i :: 0 <= i < |vals| && vals[i].Some? ==> vals[i].value < n) &&
      ((exists i :: 0 <= i < |vals| && vals[i].Some?) ==> exists i :: 0 <= i < |vals| && vals[i] == Some(n - 1)) &&
      ((forall i :: 0 <= i < |vals| ==> vals[i].None?) ==> n == 1)
  {
    var n := NextFrom(vals);
    forall i | 0 <= i < |vals| && vals[i].Some? ensures vals[i].value < n {
      assert Some(vals[i].value) in vals;
    }
    if forall i :: 0 <= i < |vals| ==> vals[i].None? {
      assert forall v :: Some(v) !in vals;
    } else {
      var i :| 0 <= i < |vals| && vals[i].Some?;
      assert Some(vals[i].value) in vals;
    }
  }

  /** The suggested stock number: "STK", then the next number's text
      left-padded with '0' to three places (longer text is kept whole), all
      digits when the next number is not negative; its own suffix parses to
      at least the next number, and to exactly it when that is not
      negative. */
  function NextStockNumber(items: seq<StockItem>): (r: string)
    ensures |r| >= 6 && r[..3] == Prefix
    ensures |r| == 3 + (if |IntToString(NextNumber(items))| < 3 then 3 else |IntToString(NextNumber(items))|)
    ensures |IntToString(NextNumber(items))| >= 3 ==> r[3..] == IntToString(NextNumber(items))
    ensures |IntToString(NextNumber(items))| < 3 ==>
      r[6 - |IntToString(NextNumber(items))|..] == IntToString(NextNumber(items)) &&
      forall i :: 3 <= i < 6 - |IntToString(NextNumber(items))| ==> r[i] == '0'
    ensures NextNumber(items) >= 0 ==> forall i :: 3 <= i < |r| ==> IsDigit(r[i])
    ensures SuffixValue(r).Some? && SuffixValue(r).value >= NextNumber(items)
    ensures NextNumber(items) >= 0 ==> SuffixValue(r) == Some(NextNumber(items))
  {
    var n := NextNumber(items);
    FormatReadsBack(n);
    Format(n)
  }

  /** "STK" followed by `n` padded to three places. */
  function Format(n: int): (r: string)
    ensures |r| >= 6 && r[..3] == Prefix
    ensures |r| == 3 + (if |IntToString(n)| < 3 then 3 else |IntToString(n)|)
    ensures |IntToString(n)| >= 3 ==> r[3..] == IntToString(n)
    ensures |IntToString(n)| < 3 ==>
      r[6 - |IntToString(n)|..] == IntToString(n) &&
      forall i :: 3 <= i < 6 - |IntToString(n)| ==> r[i] == '0'
    ensures n >= 0 ==> forall i :: 3 <= i < |r| ==> IsDigit(r[i])
  {
    FormatShape(IntToString(n));
    FormatDigits(n);
    Prefix + PadStart(IntToString(n), 3, '0')
  }

  /** "STK", then `t` left-padded with '0' to three places. */
  lemma FormatShape(t: string)
    ensures var r := Prefix + PadStart(t, 3, '0');
      && |r| >= 6 && r[..3] == Prefix
      && |r| == 3 + (if |t| < 3 then 3 else |t|)
      && (|t| >= 3 ==> r[3..] == t)
      && (|t| < 3 ==> r[6 - |t|..] == t && forall i :: 3 <= i < 6 - |t| ==> r[i] == '0')
  {
    var p := PadStart(t, 3, '0');
    var r := Prefix + p;
    assert r[..3] == Prefix && r[3..] == p;
    if |t| < 3 {
      assert r[6 - |t|..] == p[3 - |t|..];
      forall i | 3 <= i < 6 - |t| ensures r[i] == '0' {
        assert r[i] == p[i - 3];
      }
    }
  }

  /** The suffix of the formatted `n` reads back as at least `n`, and as `n`
      itself when `n` is not negative. */
  lemma FormatReadsBack(n: int)
    ensures SuffixValue(Format(n)).Some? && SuffixValue(Format(n)).value >= n
    ensures n >= 0 ==> SuffixValue(Format(n)) == Some(n)
  {
    var p := PadStart(IntToString(n), 3, '0');
    var r := Prefix + p;
    PaddedReadsBack(n);
    assert Format(n) == r;
    assert r[..3] == Prefix && r[3..] == p;
    SuffixValueCases(r);
  }

  /** For `n` not negative, every character after "STK" is a digit. */
  lemma FormatDigits(n: int)
    ensures var r := Prefix + PadStart(IntToString(n), 3, '0');
      n >= 0 ==> forall i :: 3 <= i < |r| ==> IsDigit(r[i])
  {
    var p := PadStart(IntToString(n), 3, '0');
    var r := Prefix + p;
    PaddedShape(n);
    assert forall i :: 3 <= i < |r| ==> r[i] == p[i - 3];
  }

  /** Padding a non-negative number to three places gives digits only. */
  lemma PaddedShape(n: int)
    ensures |PadStart(IntToString(n), 3, '0')| >= 3
    ensures n >= 0 ==> AllDigits(PadStart(IntToString(n), 3, '0'))
  {
    if n >= 0 {
      var ds := IntToString(n);
      var p := PadStart(ds, 3, '0');
      assert p == p[..|p| - |ds|] + ds;
      LeadingZerosKeepValue(p[..|p| - |ds|], ds);
    }
  }

  /** The padded number reads back as at least the number itself, and exactly
      as it when it is not negative. (A negative one such as -4 is padded to
      "0-4", which reads as 0.) */
  lemma PaddedReadsBack(n: int)
    ensures ParseInt(PadStart(IntToString(n), 3, '0')).Some?
    ensures ParseInt(PadStart(IntToString(n), 3, '0')).value >= n
    ensures n >= 0 ==> ParseInt(PadStart(IntToString(n), 3, '0')) == Some(n)
  {
    if n >= 0 {
      PaddedNonNegative(n);
    } else if |IntToString(n)| >= 3 {
      ParseIntOfIntToString(n);
    } else {
      PaddedSmallNegative(n);
    }
  }

  lemma PaddedNonNegative(n: nat)
    ensures ParseInt(PadStart(IntToString(n), 3, '0')) == Some(n)
  {
    var s := IntToString(n);
    var p := PadStart(s, 3, '0');
    var z := p[..|p| - |s|];
    assert p == z + s;
    LeadingZerosKeepValue(z, s);
    ParseIntOfDigits(p);
  }

  /** -9 to -1 are padded to "0-d", which reads as 0. */
  lemma PaddedSmallNegative(n: int)
    requires n < 0 && |IntToString(n)| < 3
    ensures ParseInt(PadStart(IntToString(n), 3, '0')) == Some(0)
  {
    var s := IntToString(n);
    var p := PadStart(s, 3, '0');
    var ds := NatToDigits(-n);
    assert |ds| == 1;
    assert p == "0" + ("-" + ds);
    DigitRunIsLeading("0", "-" + ds);
    assert DigitsValue("0") == 0 by {
      assert "0"[..0] == [];
    }
  }

  /** The suggestion differs from every existing stock number whose suffix
      parses. */
  lemma SuggestionIsFresh(items: seq<StockItem>)
    ensures forall i :: 0 <= i < |items| && SuffixValue(items[i].stockNumber).Some? ==>
      items[i].stockNumber != NextStockNumber(items)
  {
  }

  /** With no parsable suffix at all the suggestion is "STK001". */
  lemma SuggestionDefault(items: seq<StockItem>)
    requires forall i :: 0 <= i < |items| ==> SuffixValue(items[i].stockNumber).None?
    ensures NextStockNumber(items) == "STK001"
  {
    FormatOne();
  }

  /** An item whose suffix does not parse is ignored: adding it to the list
      does not change the suggestion. */
  lemma UnparsableSuffixIgnored(items: seq<StockItem>, x: StockItem)
    requires SuffixValue(x.stockNumber).None?
    ensures NextStockNumber(items + [x]) == NextStockNumber(items)
  {
    var extended, original := Suffixes(items + [x]), Suffixes(items);
    assert extended == original + [None];
    forall v ensures Some(v) in extended <==> Some(v) in original {
      assert Some(v) in extended <==> Some(v) in original || Some(v) == None;
    }
    NextFromBySet(extended, original);
  }

  /** A worked instance: STK001, STK005 and STKabc suggest STK006. */
  lemma SuggestionExample(a: StockItem, b: StockItem, c: StockItem)
    requires a.stockNumber == "STK001" && b.stockNumber == "STK005" && c.stockNumber == "STKabc"
    ensures NextStockNumber([a, b, c]) == "STK006"
  {
    var items := [a, b, c];
    ExampleNextNumber(items);
    FormatSix();
  }

  lemma ExampleNextNumber(items: seq<StockItem>)
    requires |items| == 3
    requires |items[0].stockNumber| == 6 && items[0].stockNumber[..3] == Prefix
    requires items[0].stockNumber[3] == '0' && items[0].stockNumber[4] == '0' && items[0].stockNumber[5] == '1'
    requires |items[1].stockNumber| == 6 && items[1].stockNumber[..3] == Prefix
    requires items[1].stockNumber[3] == '0' && items[1].stockNumber[4] == '0' && items[1].stockNumber[5] == '5'
    requires |items[2].stockNumber| > 3 && items[2].stockNumber[..3] == "STK" && items[2].stockNumber[3] == 'a'
    ensures NextNumber(items) == 6
  {
    PaddedDigitSuffix(items[0].stockNumber, 1);
    PaddedDigitSuffix(items[1].stockNumber, 5);
    LetterSuffix(items[2].stockNumber);
    var vals := Suffixes(items);
    assert vals[0] == Some(1) && vals[1] == Some(5) && vals[2] == None;
    NextOfOneFiveNaN(vals);
  }

  lemma NextOfOneFiveNaN(vals: seq<Option<int>>)
    requires |vals| == 3
    requires vals[0] == Some(1) && vals[1] == Some(5) && vals[2] == None
    ensures NextFrom(vals) == 6
  {
    var n := NextFrom(vals);
    assert Some(5) in vals;
    var i :| 0 <= i < |vals| && vals[i] == Some(n - 1);
  }

  lemma FormatSix()
    ensures Format(6) == "STK006"
  {
    assert IntToString(6) == "6";
  }

  lemma FormatOne()
    ensures Format(1) == "STK001"
  {
    assert IntToString(1) == "1";
  }

  /** "STK00" followed by the digit d reads as d. */
  lemma PaddedDigitSuffix(sn: string, d: nat)
    requires d < 10 && |sn| == 6 && sn[..3] == Prefix && sn[3] == '0' && sn[4] == '0' && sn[5] == DigitChar(d)
    ensures SuffixValue(sn) == Some(d)
  {
    var p := sn[3..];
    var ds := p[2..];
    assert DigitsValue(ds) == d by {
      assert ds[..0] == [];
    }
    LeadingZerosKeepValue(p[..2], ds);
    assert p == p[..2] + ds;
    ParseIntOfDigits(p);
    SuffixValueCases(sn);
  }

  /** "STK" followed by a letter does not parse. */
  lemma LetterSuffix(sn: string)
    requires |sn| > 3 && sn[..3] == Prefix && 'a' <= sn[3] <= 'z'
    ensures SuffixValue(sn).None?
  {
    var rest := sn[3..];
    assert rest[0] == sn[3] && !IsWhitespace(rest[0]);
    SuffixValueCases(sn);
  }

}

=== FILE: stock_table.dfy ===
/** The `StockTable` component: the column sort (its configuration, the
    comparator it hands to the engine's sort and the resulting order), the
    sort icons, the empty view and the quantity status and badge. */
module StockTable {
  import opened Options
  import opened JsNumber
  import opened JsString
  import opened Stock
  import Validation

  /** `keyof StockItem`. */
  datatype Column = Id | StockNumber | ProductName | Quantity | Price | UpdatedAt
  datatype Direction = Asc | Desc
  datatype SortConfig = SortConfig(key: Column, direction: Direction)

  /** `handleSort`: a click on the column sorted ascending switches it to
      descending; any other click sorts the clicked column ascending. */
  function HandleSort(prev: Option<SortConfig>, key: Column): (r: SortConfig)
    ensures r.key == key
    ensures r.direction == Desc <==> prev == Some(SortConfig(key, Asc))
  {
    SortConfig(key, if prev.Some? && prev.value.key == key && prev.value.direction == Asc then Desc else Asc)
  }

  /** Clicking the active column flips its direction, and clicking it once
      more restores the configuration: on one column the clicks alternate. */
  lemma SortClicksAlternate(c: SortConfig)
    ensures HandleSort(Some(c), c.key).key == c.key
    ensures HandleSort(Some(c), c.key).direction != c.direction
    ensures HandleSort(Some(HandleSort(Some(c), c.key)), c.key) == c
  {
  }

  /** The first click on a column, and the first after another column was
      active, always sorts ascending. */
  lemma NewColumnSortsAscending(prev: Option<SortConfig>, key: Column)
    requires prev.None? || prev.value.key != key
    ensures HandleSort(prev, key) == SortConfig(key, Asc)
  {
  }

  /** Three clicks on a column that is not active sort it ascending,
      descending, then ascending again. */
  lemma ThreeClicksOnOneColumn(prev: Option<SortConfig>, key: Column)
    requires prev.None? || prev.value.key != key
    ensures
      var first := HandleSort(prev, key);
      var second := HandleSort(Some(first), key);
      var third := HandleSort(Some(second), key);
      first.direction == Asc && second.direction == Desc && third.direction == Asc
  {
  }

  datatype Icon = Neutral | Up | Down

  /** `getSortIcon`: a neutral dash except on the active column, whose icon
      shows its direction. */
  function SortIcon(cfg: Option<SortConfig>, key: Column): (r: Icon)
    ensures r == Neutral <==> cfg.None? || cfg.value.key != key
    ensures r == Up <==> cfg == Some(SortConfig(key, Asc))
    ensures r == Down <==> cfg == Some(SortConfig(key, Desc))
  {
    match cfg
    case None => Neutral
    case Some(SortConfig(k, Asc)) => if k == key then Up else Neutral
    case Some(SortConfig(k, Desc)) => if k == key then Down else Neutral
  }

  /** After a click, exactly the clicked column shows a direction, and the
      icon it shows agrees with the configuration's direction. */
  lemma IconFollowsClick(prev: Option<SortConfig>, key: Column, other: Column)
    ensures SortIcon(Some(HandleSort(prev, key)), other) != Neutral <==> other == key
    ensures SortIcon(Some(HandleSort(prev, key)), key) == Down <==> prev == Some(SortConfig(key, Asc))
  {
  }

  /** A column's value as the comparator sees it: text or a number. */
  datatype Key = Text(s: string) | Number(n: Num)

  /** `a[sortConfig.key]`: the sorted column's field of the item, compared as
      text for the four string columns and as a number for the two numeric
      ones. */
  function KeyOf(item: StockItem, col: Column): (k: Key)
    ensures k.Number? <==> col == Quantity || col == Price
    ensures col == Id ==> k == Text(item.id)
    ensures col == StockNumber ==> k == Text(item.stockNumber)
    ensures col == ProductName ==> k == Text(item.productName)
    ensures col == Quantity ==> k == Number(item.quantity)
    ensures col == Price ==> k == Number(item.price)
    ensures col == UpdatedAt ==> k == Text(item.updatedAt)
  {
    match col
    case Id => Text(item.id)
    case StockNumber => Text(item.stockNumber)
    case ProductName => Text(item.productName)
    case Quantity => Number(item.quantity)
    case Price => Number(item.price)
    case UpdatedAt => Text(item.updatedAt)
  }

  /** JavaScript `<` on two values of one column: code-point order on strings,
      numeric order (false with NaN) on numbers. */
  predicate KeyLess(a: Key, b: Key)
  {
    match (a, b)
    case (Text(x), Text(y)) => StrLess(x, y)
    case (Number(x), Number(y)) => Less(x, y)
    case _ => false
  }

  /** A key every other key of its kind is comparable with: anything but NaN. */
  predicate Defined(k: Key)
  {
    k.Text? || !k.n.NaN?
  }

  /** The comparator passed to `sort`: -1, 1 or 0, with the signs swapped
      for a descending sort. */
  function Compare(a: StockItem, b: StockItem, cfg: SortConfig): (r: int)
    ensures -1 <= r <= 1
    ensures r == 0 <==> !KeyLess(KeyOf(a, cfg.key), KeyOf(b, cfg.key)) && !KeyLess(KeyOf(b, cfg.key), KeyOf(a, cfg.key))
  {
    var x := KeyOf(a, cfg.key);
    var y := KeyOf(b, cfg.key);
    if KeyLess(x, y) then (if cfg.direction == Asc then -1 else 1)
    else if KeyLess(y, x) then (if cfg.direction == Asc then 1 else -1)
    else 0
  }

  /** The descending comparator is the ascending one negated, and equal keys
      compare as ties in both directions. */
  lemma DescendingNegatesAscending(a: StockItem, b: StockItem, key: Column)
    ensures Compare(a, b, SortConfig(key, Desc)) == -Compare(a, b, SortConfig(key, Asc))
    ensures KeyOf(a, key) == KeyOf(b, key) ==> Compare(a, b, SortConfig(key, Asc)) == 0
  {
    var x := KeyOf(a, key);
    if x.Text? {
      StrLessIrreflexive(x.s);
    }
  }

  /** The order a sort by `cfg` is meant to produce, stated without the
      comparator: ascending puts no item after one with a greater key,
      descending no item after one with a smaller key. */
  predicate Precedes(a: StockItem, b: StockItem, cfg: SortConfig)
  {
    if cfg.direction == Asc then !KeyLess(KeyOf(b, cfg.key), KeyOf(a, cfg.key))
    else !KeyLess(KeyOf(a, cfg.key), KeyOf(b, cfg.key))
  }

  lemma KeyLessAsymmetric(x: Key, y: Key)
    ensures KeyLess(x, y) ==> !KeyLess(y, x)
  {
    if x.Text? && y.Text? {
      StrLessAsymmetric(x.s, y.s);
    }
  }

  /** The comparator's verdict means `Precedes`, in both directions. */
  lemma CompareMeansPrecedes(a: StockItem, b: StockItem, cfg: SortConfig)
    ensures Compare(a, b, cfg) <= 0 <==> Precedes(a, b, cfg)
    ensures Compare(a, b, cfg) > 0 ==> Compare(b, a, cfg) < 0
  {
    KeyLessAsymmetric(KeyOf(a, cfg.key), KeyOf(b, cfg.key));
  }

  /** "Not less than" chains on keys of one kind without NaN. */
  lemma NotLessTransitive(a: Key, b: Key, c: Key)
    requires Defined(a) && Defined(b) && Defined(c)
    requires a.Text? == b.Text? && b.Text? == c.Text?
    ensures !KeyLess(b, a) && !KeyLess(c, b) ==> !KeyLess(c, a)
  {
    if a.Text? {
      StrLessTotal(a.s, b.s);
      StrLessTransitive(c.s, a.s, b.s);
    } else {
      LessIsStrictTotalOrder(a.n, b.n, c.n);
      LessIsStrictTotalOrder(c.n, a.n, b.n);
    }
  }

  lemma PrecedesTransitive(a: StockItem, b: StockItem, c: StockItem, cfg: SortConfig)
    requires Defined(KeyOf(a, cfg.key)) && Defined(KeyOf(b, cfg.key)) && Defined(KeyOf(c, cfg.key))
    ensures Precedes(a, b, cfg) && Precedes(b, c, cfg) ==> Precedes(a, c, cfg)
  {
    var x, y, z := KeyOf(a, cfg.key), KeyOf(b, cfg.key), KeyOf(c, cfg.key);
    if cfg.direction == Asc {
      NotLessTransitive(x, y, z);
    } else {
      NotLessTransitive(z, y, x);
    }
  }

  /** Every neighbouring pair is in the comparator's order. */
  predicate Sorted(s: seq<StockItem>, cfg: SortConfig)
  {
    forall i :: 0 <= i < |s| - 1 ==> Compare(s[i], s[i + 1], cfg) <= 0
  }

  /** No item of `s` has NaN in the sorted column. */
  predicate KeysDefined(s: seq<StockItem>, col: Column)
  {
    forall x :: x in s ==> Defined(KeyOf(x, col))
  }

  /** One step of the engine's stable sort: `x`, which came before every
      element of `t`, goes in front of the first element it does not compare
      greater than. */
  function Insert(x: StockItem, t: seq<StockItem>, cfg: SortConfig): (r: seq<StockItem>)
    ensures multiset(r) == multiset(t) + multiset{x}
    ensures |r| == |t| + 1
    ensures r[0] == x || (|t| > 0 && r[0] == t[0])
    decreases |t|
  {
    if |t| == 0 || Compare(x, t[0], cfg) <= 0 then [x] + t
    else
      assert t == [t[0]] + t[1..];
      [t[0]] + Insert(x, t[1..], cfg)
  }

  lemma {:induction false} InsertKeepsSorted(x: StockItem, t: seq<StockItem>, cfg: SortConfig)
    requires Sorted(t, cfg)
    ensures Sorted(Insert(x, t, cfg), cfg)
    decreases |t|
  {
    if |t| > 0 && Compare(x, t[0], cfg) > 0 {
      var rest := Insert(x, t[1..], cfg);
      assert Sorted(t[1..], cfg) by {
        var tail := t[1..];
        assert forall i :: 0 <= i < |tail| ==> tail[i] == t[i + 1];
      }
      InsertKeepsSorted(x, t[1..], cfg);
      CompareMeansPrecedes(x, t[0], cfg);
      assert Compare(t[0], rest[0], cfg) <= 0;
      var r := [t[0]] + rest;
      assert forall i :: 1 <= i < |r| - 1 ==> r[i] == rest[i - 1] && r[i + 1] == rest[i];
    }
  }

  /** The engine's sort with the table's comparator, modelled as a stable
      insertion sort. */
  function SortBy(s: seq<StockItem>, cfg: SortConfig): (r: seq<StockItem>)
    ensures multiset(r) == multiset(s)
    ensures |r| == |s|
    decreases |s|
  {
    if |s| == 0 then []
    else
      assert s == [s[0]] + s[1..];
      Insert(s[0], SortBy(s[1..], cfg), cfg)
  }

  lemma {:induction false} SortBySorted(s: seq<StockItem>, cfg: SortConfig)
    ensures Sorted(SortBy(s, cfg), cfg)
    decreases |s|
  {
    if |s| > 0 {
      SortBySorted(s[1..], cfg);
      InsertKeepsSorted(s[0], SortBy(s[1..], cfg), cfg);
    }
  }

  /** `sortedItems`: the items as received while no column is active;
      otherwise a rearrangement of them in the comparator's order. */
  function SortedItems(items: seq<StockItem>, cfg: Option<SortConfig>): (r: seq<StockItem>)
    ensures cfg.None? ==> r == items
    ensures multiset(r) == multiset(items)
    ensures cfg.Some? ==> Sorted(r, cfg.value)
  {
    match cfg
    case None => items
    case Some(c) =>
      SortBySorted(items, c);
      SortBy(items, c)
  }

  /** Sorting an already sorted list leaves it as it is: ties keep their order. */
  lemma {:induction false} SortOfSortedIsIdentity(s: seq<StockItem>, cfg: SortConfig)
    requires Sorted(s, cfg)
    ensures SortBy(s, cfg) == s
    decreases |s|
  {
    if |s| > 0 {
      assert Sorted(s[1..], cfg) by {
        var tail := s[1..];
        assert forall i :: 0 <= i < |tail| ==> tail[i] == s[i + 1];
      }
      SortOfSortedIsIdentity(s[1..], cfg);
      assert s == [s[0]] + s[1..];
    }
  }

  /** Re-rendering with the same configuration does not move any row. */
  lemma SortIsIdempotent(items: seq<StockItem>, cfg: Option<SortConfig>)
    ensures SortedItems(SortedItems(items, cfg), cfg) == SortedItems(items, cfg)
  {
    if cfg.Some? {
      SortOfSortedIsIdentity(SortedItems(items, cfg), cfg.value);
    }
  }

  /** In a comparator-sorted list without NaN keys, every item precedes every
      later one, not only its neighbour. */
  lemma {:induction false} SortedChainPrecedes(s: seq<StockItem>, cfg: SortConfig)
    requires Sorted(s, cfg) && KeysDefined(s, cfg.key)
    ensures forall i, j :: 0 <= i < j < |s| ==> Precedes(s[i], s[j], cfg)
    decreases |s|
  {
    if |s| > 1 {
      var t := s[1..];
      assert forall i :: 0 <= i < |t| ==> t[i] == s[i + 1];
      assert KeysDefined(t, cfg.key) by {
        assert forall x :: x in t ==> x in s;
      }
      SortedChainPrecedes(t, cfg);
      CompareMeansPrecedes(s[0], s[1], cfg);
      forall j | 1 < j < |s|
        ensures Precedes(s[0], s[j], cfg)
      {
        assert Precedes(s[1], s[j], cfg) by {
          assert s[1] == t[0] && s[j] == t[j - 1];
        }
        PrecedesTransitive(s[0], s[1], s[j], cfg);
      }
    }
  }

  /** With no NaN in the active column, the rendered rows are in the order
      the column and direction ask for, across the whole table. */
  lemma SortedItemsInOrder(items: seq<StockItem>, cfg: SortConfig)
    requires KeysDefined(items, cfg.key)
    ensures forall i, j :: 0 <= i < j < |SortedItems(items, Some(cfg))| ==>
      Precedes(SortedItems(items, Some(cfg))[i], SortedItems(items, Some(cfg))[j], cfg)
  {
    var r := SortedItems(items, Some(cfg));
    assert KeysDefined(r, cfg.key) by {
      assert forall x :: x in r ==> x in multiset(items);
    }
    SortedChainPrecedes(r, cfg);
  }

  /** What the component renders: the empty-inventory panel or the rows. */
  datatype View = EmptyState | Table(rows: seq<StockItem>)

  function Render(items: seq<StockItem>, cfg: Option<SortConfig>): (r: View)
    ensures r.EmptyState? <==> |items| == 0
    ensures r.Table? ==> multiset(r.rows) == multiset(items)
    ensures r.Table? && cfg.Some? ==> Sorted(r.rows, cfg.value)
    ensures r.Table? && cfg.None? ==> r.rows == items
  {
    if |items| == 0 then EmptyState else Table(SortedItems(items, cfg))
  }

  /** The status cell: "Out of Stock", "Only <n> left" or "In stock". */
  datatype Status = OutOfStock | OnlyLeft(n: Num) | InStock

  function StatusOf(q: Num): (r: Status)
    ensures r == OutOfStock <==> q == Fin(0.0)
    ensures r.OnlyLeft? <==> q == NegInf || (q.Fin? && q.r != 0.0 && q.r < 10.0)
    ensures r.OnlyLeft? ==> r.n == q
    ensures r == InStock <==> q.NaN? || q == PosInf || (q.Fin? && q.r >= 10.0)
  {
    if StrictEquals(q, Fin(0.0)) then OutOfStock
    else if Less(q, Fin(10.0)) then OnlyLeft(q)
    else InStock
  }

  /** The colour of the quantity badge. */
  datatype Badge = Red | Yellow | Emerald

  function BadgeOf(q: Num): (r: Badge)
    ensures r == Red <==> q == Fin(0.0)
    ensures r == Emerald <==> q.NaN? || q == PosInf || (q.Fin? && q.r >= 10.0)
  {
    if StrictEquals(q, Fin(0.0)) then Red
    else if Less(q, Fin(10.0)) then Yellow
    else Emerald
  }

  /** The badge and the status text of a row always agree. */
  lemma BadgeAgreesWithStatus(q: Num)
    ensures BadgeOf(q) == Red <==> StatusOf(q) == OutOfStock
    ensures BadgeOf(q) == Yellow <==> StatusOf(q).OnlyLeft?
    ensures BadgeOf(q) == Emerald <==> StatusOf(q) == InStock
  {
  }

  /** For a quantity the form accepts (a whole number, at least 0) the three
      statuses are exactly 0, 1 to 9, and 10 or more. */
  lemma AcceptedQuantityStatus(q: Num)
    requires Validation.QuantityRule(q).None?
    ensures StatusOf(q) == OutOfStock <==> q.r == 0.0
    ensures StatusOf(q).OnlyLeft? <==> 1.0 <= q.r <= 9.0
    ensures StatusOf(q) == InStock <==> q.r >= 10.0
  {
    assert q.r == q.r.Floor as real;
    if 0.0 < q.r < 10.0 {
      assert 1 <= q.r.Floor <= 9;
    }
  }

}

=== FILE: update_panel.dfy ===
/** The `UpdatePanel` component: the search box that picks the item to edit,
    the notices it shows, and the save that merges the edited fields into the
    picked item before handing it to the update handler. */
module UpdatePanel {
  import opened Options
  import opened JsString
  import opened Stock
  import opened ItemList

  /** The panel's own state hooks. */
  datatype PanelState = PanelState(searchTerm: string, searchResult: Option<StockItem>, searchPerformed: bool)

  const InitialPanel := PanelState("", None, false)

  /** The panel's state after a search, and the item App is editing. */
  datatype Searched = Searched(panel: PanelState, editing: Option<StockItem>)

  /** `handleSearch`: a blank term does nothing; otherwise App's search runs
      over the cached items, its answer is recorded, and a hit becomes the
      item being edited. A miss leaves any earlier edit in place. */
  function PanelSearch(panel: PanelState, items: seq<StockItem>, editing: Option<StockItem>): (r: Searched)
    ensures AllWhitespace(panel.searchTerm) ==> r == Searched(panel, editing)
    ensures !AllWhitespace(panel.searchTerm) ==>
      && r.panel.searchPerformed
      && r.panel.searchTerm == panel.searchTerm
      && r.panel.searchResult == Search(items, panel.searchTerm)
    ensures !AllWhitespace(panel.searchTerm) && r.panel.searchResult.Some? ==>
      r.editing == r.panel.searchResult && r.editing.value in items
    ensures r.panel.searchResult.None? ==> r.editing == editing
  {
    if |Trim(panel.searchTerm)| == 0 then Searched(panel, editing)
    else
      var result := Search(items, panel.searchTerm);
      Searched(panel.(searchResult := result, searchPerformed := true),
               if result.Some? then result else editing)
  }

  /** A search that finds nothing keeps the earlier edit open: the save that
      follows still targets the item found before. */
  lemma MissKeepsEditing(panel: PanelState, items: seq<StockItem>, e: StockItem)
    requires !AllWhitespace(panel.searchTerm)
    requires forall i :: 0 <= i < |items| ==> !Matches(items[i], Needle(panel.searchTerm))
    ensures PanelSearch(panel, items, Some(e)).editing == Some(e)
    ensures PanelSearch(panel, items, Some(e)).panel.searchResult.None?
  {
  }

  /** A hit picks the first matching item, whatever was edited before. */
  lemma HitPicksFirstMatch(panel: PanelState, items: seq<StockItem>, editing: Option<StockItem>, i: nat)
    requires i < |items|
    ensures
      && !AllWhitespace(panel.searchTerm)
      && Matches(items[i], Needle(panel.searchTerm))
      && (forall j :: 0 <= j < i ==> !Matches(items[j], Needle(panel.searchTerm)))
      ==> PanelSearch(panel, items, editing).editing == Some(items[i])
  {
    SearchReturnsFirstMatch(items, panel.searchTerm, i);
  }

  /** What the panel shows under the search box. */
  datatype Notice = NoNotice | NotFound | Found(item: StockItem)

  function NoticeOf(panel: PanelState, editing: Option<StockItem>): (r: Notice)
    ensures r == NotFound <==> panel.searchPerformed && panel.searchResult.None?
    ensures r.Found? <==> panel.searchResult.Some? && editing.None?
    ensures r.Found? ==> r.item == panel.searchResult.value
  {
    if panel.searchPerformed && panel.searchResult.None? then NotFound
    else if panel.searchResult.Some? && editing.None? then Found(panel.searchResult.value)
    else NoNotice
  }

  /** Right after a successful search the edit form opens and no notice
      shows; the "found" card appears only once that edit is closed. */
  lemma HitShowsNoNotice(panel: PanelState, items: seq<StockItem>, editing: Option<StockItem>)
    ensures
      var after := PanelSearch(panel, items, editing);
      !AllWhitespace(panel.searchTerm) && after.panel.searchResult.Some? ==>
        && NoticeOf(after.panel, after.editing) == NoNotice
        && NoticeOf(after.panel, None).Found?
  {
  }

  /** `{...editingItem, ...updatedData}`: the form's fields over the edited
      item; its id and timestamp stay. */
  function Merge(item: StockItem, d: Draft): (r: StockItem)
    ensures r.id == item.id && r.updatedAt == item.updatedAt
    ensures DraftOf(r) == d
  {
    item.(stockNumber := d.stockNumber, productName := d.productName, quantity := d.quantity, price := d.price)
  }

  /** Merging an item's own fields gives the item back, and a later merge
      overrides an earlier one. */
  lemma MergeRoundTrip(item: StockItem, d1: Draft, d2: Draft)
    ensures Merge(item, DraftOf(item)) == item
    ensures Merge(Merge(item, d1), d2) == Merge(item, d2)
  {
  }

  /** `handleSave`: nothing to save (false) while no item is being edited;
      otherwise the merged record the update handler is asked to store. */
  function HandleSave(editing: Option<StockItem>, d: Draft): (r: Option<StockItem>)
    ensures r.None? <==> editing.None?
    ensures r.Some? ==> r.value == Merge(editing.value, d)
    ensures r.Some? ==> r.value.id == editing.value.id && DraftOf(r.value) == d
  {
    match editing
    case None => None
    case Some(item) => Some(Merge(item, d))
  }

}

=== FILE: validation.dfy ===
/** The form validator `validateStockItem`: four independent rule chains, one
    per field, each contributing at most one message to an error map keyed by
    the field's name. */
module Validation {
  import opened Options
  import opened JsNumber
  import opened JsString
  import opened Stock

  const StockNumberKey := "stockNumber"
  const ProductNameKey := "productName"
  const QuantityKey := "quantity"
  const PriceKey := "price"
  const FieldKeys: set<string> := {StockNumberKey, ProductNameKey, QuantityKey, PriceKey}

  const StockNumberRequired := "Stock number is required"
  const StockNumberNotAlnum := "Stock number must contain only alphanumeric characters"
  const ProductNameRequired := "Product name is required"
  const QuantityRequired := "Quantity is required"
  const QuantityNegative := "Quantity must be 0 or greater"
  const QuantityNotWhole := "Quantity must be a whole number"
  const PriceRequired := "Price is required"
  const PriceNegative := "Price must be 0 or greater"

  datatype ValidationResult = ValidationResult(isValid: bool, errors: map<string, string>)

  /** The message stored under `key`, if any. */
  function Entry(errors: map<string, string>, key: string): Option<string>
  {
    if key in errors then Some(errors[key]) else None
  }

  /** A whitespace-padded alphanumeric stock number: optional whitespace, one
      or more ASCII letters or digits, optional whitespace. */
  ghost predicate IsPaddedAlnum(s: string)
  {
    exists i, j :: 0 <= i <= j <= |s| && AllWhitespace(s[..i]) && MatchesAlnum(s[i..j]) && AllWhitespace(s[j..])
  }

  /** Stock-number chain: blank means required; otherwise the trimmed value must
      match `^[a-zA-Z0-9]+$`. */
  function StockNumberRule(s: string): (r: Option<string>)
    ensures r == Some(StockNumberRequired) <==> AllWhitespace(s)
    ensures r == Some(StockNumberNotAlnum) <==> !AllWhitespace(s) && !MatchesAlnum(Trim(s))
    ensures r == None <==> MatchesAlnum(Trim(s))
  {
    if |s| == 0 || |Trim(s)| == 0 then Some(StockNumberRequired)
    else if !MatchesAlnum(Trim(s)) then Some(StockNumberNotAlnum)
    else None
  }

  /** Product-name chain: only blankness is checked. */
  function ProductNameRule(s: string): (r: Option<string>)
    ensures r.Some? <==> AllWhitespace(s)
    ensures r.Some? ==> r.value == ProductNameRequired
  {
    if |s| == 0 || |Trim(s)| == 0 then Some(ProductNameRequired) else None
  }

  /** Quantity chain, first failing rule wins: NaN, then negative, then
      fractional (or infinite). */
  function QuantityRule(q: Num): (r: Option<string>)
    ensures r.None? <==> q.Fin? && q.r >= 0.0 && IsInteger(q)
    ensures q.NaN? ==> r == Some(QuantityRequired)
    ensures q.NegInf? || (q.Fin? && q.r < 0.0) ==> r == Some(QuantityNegative)
    ensures q.PosInf? || (q.Fin? && q.r >= 0.0 && !IsInteger(q)) ==> r == Some(QuantityNotWhole)
  {
    if q.NaN? then Some(QuantityRequired)
    else if Less(q, Fin(0.0)) then Some(QuantityNegative)
    else if !IsInteger(q) then Some(QuantityNotWhole)
    else None
  }

  /** Price chain: NaN, then negative. Fractions and +Infinity pass. */
  function PriceRule(p: Num): (r: Option<string>)
    ensures r.None? <==> p.PosInf? || (p.Fin? && p.r >= 0.0)
    ensures p.NaN? ==> r == Some(PriceRequired)
    ensures p.NegInf? || (p.Fin? && p.r < 0.0) ==> r == Some(PriceNegative)
  {
    if p.NaN? then Some(PriceRequired)
    else if Less(p, Fin(0.0)) then Some(PriceNegative)
    else None
  }

  function Put(errors: map<string, string>, key: string, e: Option<string>): map<string, string>
  {
    if e.Some? then errors[key := e.value] else errors
  }

  /** The error object built from the four per-field verdicts: one entry per
      failing field, under that field's name, and nothing else. */
  function CollectErrors(sn: Option<string>, pn: Option<string>, q: Option<string>, p: Option<string>)
    : (errors: map<string, string>)
    ensures errors.Keys <= FieldKeys
    ensures Entry(errors, StockNumberKey) == sn
    ensures Entry(errors, ProductNameKey) == pn
    ensures Entry(errors, QuantityKey) == q
    ensures Entry(errors, PriceKey) == p
  {
    Put(Put(Put(Put(map[], StockNumberKey, sn), ProductNameKey, pn), QuantityKey, q), PriceKey, p)
  }

  /** `validateStockItem`: every field is checked, every failing field reports
      its own message, and the draft is valid exactly when nothing failed. */
  function Validate(d: Draft): (r: ValidationResult)
    ensures r.errors.Keys <= FieldKeys
    ensures r.isValid <==> r.errors == map[]
    ensures Entry(r.errors, StockNumberKey) == StockNumberRule(d.stockNumber)
    ensures Entry(r.errors, ProductNameKey) == ProductNameRule(d.productName)
    ensures Entry(r.errors, QuantityKey) == QuantityRule(d.quantity)
    ensures Entry(r.errors, PriceKey) == PriceRule(d.price)
  {
    var errors := CollectErrors(
      StockNumberRule(d.stockNumber), ProductNameRule(d.productName),
      QuantityRule(d.quantity), PriceRule(d.price));
    ValidationResult(|errors| == 0, errors)
  }

  /** The stock-number chain accepts exactly the whitespace-padded non-empty
      ASCII alphanumeric strings. */
  lemma StockNumberAcceptedIff(s: string)
    ensures StockNumberRule(s).None? <==> IsPaddedAlnum(s)
  {
    if StockNumberRule(s).None? {
      AcceptedIsPadded(s);
    }
    if IsPaddedAlnum(s) {
      var i, j :| 0 <= i <= j <= |s| && AllWhitespace(s[..i]) && MatchesAlnum(s[i..j]) && AllWhitespace(s[j..]);
      PaddedIsAccepted(s, i, j);
    }
  }

  lemma AcceptedIsPadded(s: string)
    requires StockNumberRule(s).None?
    ensures IsPaddedAlnum(s)
  {
    var t := Trim(s);
    var i := LeadingWhitespace(s);
    var j := i + |t|;
    assert s[i..j] == t;
    assert AllWhitespace(s[..i]) && MatchesAlnum(s[i..j]) && AllWhitespace(s[j..]);
  }

  lemma PaddedIsAccepted(s: string, i: nat, j: nat)
    requires i <= j <= |s|
    requires AllWhitespace(s[..i]) && MatchesAlnum(s[i..j]) && AllWhitespace(s[j..])
    ensures StockNumberRule(s).None?
  {
    TrimOfPaddedAlnum(s, i, j);
    assert MatchesAlnum(Trim(s));
  }

  lemma TrimOfPaddedAlnum(s: string, i: nat, j: nat)
    requires i <= j <= |s|
    requires AllWhitespace(s[..i]) && MatchesAlnum(s[i..j]) && AllWhitespace(s[j..])
    ensures Trim(s) == s[i..j]
  {
    var c, w1, w2 := s[i..j], s[..i], s[j..];
    assert w1 + c + w2 == s;
    AlnumIsNotWhitespace(c[0]);
    AlnumIsNotWhitespace(c[|c| - 1]);
    TrimOfPadded(w1, c, w2);
  }

  lemma AlnumIsNotWhitespace(c: char)
    requires IsAsciiAlnum(c)
    ensures !IsWhitespace(c)
  {
  }

  /** A draft is valid exactly when it meets the record invariants: padded
      alphanumeric stock number, non-blank product name, a finite integer
      quantity of at least zero, and a price that is at least zero (where
      +Infinity counts as at least zero). */
  lemma ValidIff(d: Draft)
    ensures Validate(d).isValid <==>
      && IsPaddedAlnum(d.stockNumber)
      && !AllWhitespace(d.productName)
      && d.quantity.Fin? && d.quantity.r >= 0.0 && IsInteger(d.quantity)
      && (d.price.PosInf? || (d.price.Fin? && d.price.r >= 0.0))
  {
    StockNumberAcceptedIff(d.stockNumber);
    var r := Validate(d);
    if !r.isValid {
      var k :| k in r.errors;
      assert k in FieldKeys;
      assert Entry(r.errors, k).Some?;
    }
  }

  /** Each field's entry depends on that field alone: two drafts that agree on
      a field get the same verdict for it, whatever the other fields hold. */
  lemma FieldsAreIndependent(d1: Draft, d2: Draft)
    ensures d1.stockNumber == d2.stockNumber ==>
      Entry(Validate(d1).errors, StockNumberKey) == Entry(Validate(d2).errors, StockNumberKey)
    ensures d1.productName == d2.productName ==>
      Entry(Validate(d1).errors, ProductNameKey) == Entry(Validate(d2).errors, ProductNameKey)
    ensures d1.quantity == d2.quantity ==>
      Entry(Validate(d1).errors, QuantityKey) == Entry(Validate(d2).errors, QuantityKey)
    ensures d1.price == d2.price ==>
      Entry(Validate(d1).errors, PriceKey) == Entry(Validate(d2).errors, PriceKey)
  {
  }

  /** The price chain lets +Infinity through, which the form produces from an
      out-of-range literal such as "1e309" (`parseFloat` gives +Infinity, and
      `|| 0` keeps it). */
  lemma InfinitePriceAccepted(d: Draft)
    requires d.price.PosInf?
    ensures Entry(Validate(d).errors, PriceKey).None?
  {
  }

}
